=== FILE: README.md ===
# Experiment-config sidecar: rule engine model

This project models, in Dafny, the rule engine of the experiment-config
sidecar. The sidecar is a network proxy placed in front of an application
replica. It injects latency and error responses into pub/sub deliveries and
service invocations, and it drives artificial CPU and memory load. The model covers:

- the **configuration service**: its state is the pub/sub rule, the ordered
  list of service-invocation rules, the memory target and the CPU usages,
  plus the last target given to each pressure manager;
- **`UpdateConfig`**: consumes the four sidecar-owned keys of an untyped
  configuration and returns the rest;
- the **deterioration decisions** for pub/sub deliveries and for service
  invocations (first applicable rule wins);
- the **JSON property accessors** the parsing relies on, including the
  exceptions `System.Text.Json` throws on a wrong value kind;
- the **verdict branch** of the request proxy: delay, then short-circuit on an
  error code, else forward;
- the **owned keys and their published schemas**, as shape predicates;
- the **pure decisions of the endpoints**: subscription route rewriting, the
  configuration subscription, replica selection, forwarding of the remaining
  configuration, and the target URLs.

Everything is a pure function over immutable datatypes:

- JSON is an algebraic datatype. Numbers keep the distinction between a plain
  integer literal and one with a fraction or exponent.
- The 32- and 64-bit integers of the source are newtypes.
- Probabilities are reals that are only compared.
- The two draws of `Random.NextDouble()` are parameters in [0, 1).

An exception is a `Result` failure `KindMismatch(expected, actual)`. The
update pipeline keeps the source's partial effects. Its steps run in order
and the first exception aborts the rest. Assignments already made stay, and a
list that was being filled keeps the entries appended before the throw.

Files: `wrappers.dfy` (Option/Result), `json.dfy` (JSON values and the
library accessors), `models.dfy` (record types), `util.dfy`,
`config_property_definitions.dfy`, `config_service.dfy`,
`config_service_properties.dfy` (properties relating several calls),
`program.dfy`.

Two behaviours of the code that a reader might not expect, both modelled as written:

- An **absent** memory key keeps the previous memory target and hands it to
  the memory manager again. Only the other three families are reset.
- The pub/sub error code is always 500.

## Model

| member | source | states |
|---|---|---|
| JsonValues.LastIndex | ExperimentConfigSidecar/Services/Util.cs:19 | a property lookup finds a member with that name iff one exists, and it is the last such member (later definitions override earlier ones) |
| JsonValues.Lookup | ExperimentConfigSidecar/Services/Util.cs:19 | the looked-up value is the value of the last member with that name; nothing iff no member has the name |
| JsonValues.TryGetProperty | ExperimentConfigSidecar/Services/Util.cs:19 | property access throws exactly on non-objects; otherwise it finds the property iff the object has it, and what it finds is the value of the last member with that name |
| JsonValues.TryGetInt32 | ExperimentConfigSidecar/Services/Util.cs:39 | throws exactly on non-numbers; yields a value only for an integer literal, and always for one within 32-bit range |
| JsonValues.TryGetInt64 | ExperimentConfigSidecar/Services/ConfigService.cs:71 | as TryGetInt32 with the 64-bit range |
| JsonValues.TryGetDouble | ExperimentConfigSidecar/Services/Util.cs:21 | throws exactly on non-numbers; yields the number's value iff its magnitude is below 2^1024 - 2^970, the bound past which a literal rounds to an infinite double |
| JsonValues.DoubleOverflowIsHalfwayPastMaxDouble | ExperimentConfigSidecar/Services/Util.cs:21 | the overflow bound is the largest finite double 2^1024 - 2^971 plus half a unit in the last place, and lies below 2^1024 |
| JsonValues.DoubleOverflowExamples | ExperimentConfigSidecar/Services/Util.cs:21 | 1e302 and 1.7976931348623157e308 read as their values; 1.8e308 overflows and reads as nothing |
| JsonValues.GetString | ExperimentConfigSidecar/Services/Util.cs:57 | a string yields its text, null yields nothing, every other kind throws |
| Util.GetDoubleProperty | ExperimentConfigSidecar/Services/Util.cs:17-27 | non-object throws; missing property gives null; otherwise throws iff the property is not a number; a number yields its value iff it does not overflow a double, and a returned value is the property's numeric value |
| Util.GetIntProperty | ExperimentConfigSidecar/Services/Util.cs:35-45 | non-object throws; missing gives null; a non-number property throws; a number gives a value iff it is an integer literal in 32-bit range, and that value is the literal |
| Util.GetStringProperty | ExperimentConfigSidecar/Services/Util.cs:53-60 | non-object throws; missing or JSON null gives null; a string gives its text; any other kind throws |
| Util.IsNull | ExperimentConfigSidecar/Services/Util.cs:67-70 | true iff the element's kind is Null |
| Util.ApplyDeterioration | ExperimentConfigSidecar/Services/Util.cs:103-110 | with an error code the request is answered with exactly that status and never forwarded; without one it is forwarded to the request URL; the delay is applied first in both cases (a delay of -1 waits forever, below -1 throws) |
| ConfigPropertyDefinitions.ConfigPropertyKeysAreFourDistinctKeys | ExperimentConfigSidecar/Services/ConfigPropertyDefinitions.cs:133 | the owned key set is exactly the four key constants, which are pairwise distinct, so it has four elements |
| ConfigPropertyDefinitions.DefaultValue | ExperimentConfigSidecar/Services/ConfigService.cs:219-222 | the published default value (JSON null) is admitted by every one of the four schemas |
| ConfigPropertyDefinitions.AdmitsIsOneOf | ExperimentConfigSidecar/Services/ConfigPropertyDefinitions.cs:31-128 | a value is admitted by a schema iff exactly one of its `oneOf` alternatives matches (item, array of items, null, or integer for memory), as JSON Schema defines `oneOf` |
| ConfigPropertyDefinitions.SchemaFor | ExperimentConfigSidecar/Services/ConfigService.cs:219-222 | each owned key is published with its own schema, and no two keys share one |
| ConfigService.ParsePubsubRule | ExperimentConfigSidecar/Services/ConfigService.cs:131-136 | parsing succeeds iff the value is an object whose delay and probabilities, when present, are numbers; delay is the in-range integer or 0; probabilities are absent when missing |
| ConfigService.ParseServiceInvocationRule | ExperimentConfigSidecar/Services/ConfigService.cs:149-159 | exact success condition; path kept only when it is a string; delay defaults to 0 and errorCode to 500 when missing or not an in-range integer |
| ConfigService.ParseCPUUsage | ExperimentConfigSidecar/Services/ConfigService.cs:166-173 | exact success condition; missing or non-int32 durations default to 0 |
| ConfigService.ParseEach | ExperimentConfigSidecar/Services/ConfigService.cs:115-118 | the list holds the items' parses in order, up to the first item that throws (whose exception is reported) or all of them |
| ConfigService.UpdatePubsubDeterioration | ExperimentConfigSidecar/Services/ConfigService.cs:127-142 | absent or null resets the rule to (0, null, null); otherwise the rule becomes the parse, and a throwing parse leaves the state unchanged; nothing else changes |
| ConfigService.UpdateServiceInvocationDeterioration | ExperimentConfigSidecar/Services/ConfigService.cs:104-121 | absent or null gives an empty list; an object one rule and an array one rule per element, in order, keeping the parsed prefix on an exception; any other kind throws with an empty list; nothing else changes |
| ConfigService.UpdateArtificialMemoryUsageAsWritten | ExperimentConfigSidecar/Services/ConfigService.cs:67-74 | absent keeps the previous target; an int64 literal sets that value; any other number sets 0; any non-number value, null included, throws and leaves the state unchanged; without an exception the memory manager receives the resulting target |
| ConfigService.UpdateArtificialMemoryUsage | ExperimentConfigSidecar/Services/ConfigService.cs:67-74 | the corrected step (see Findings): as the source for absent keys, numbers and non-null kinds, but a JSON null sets the target to 0 where the source throws; the manager receives the resulting target |
| ConfigService.UpdateArtificialCPUUsage | ExperimentConfigSidecar/Services/ConfigService.cs:80-98 | the list is reset, then filled from an object (one entry) or an array (in order, parsed prefix kept on an exception); the CPU manager receives the list exactly when no exception occurred |
| ConfigService.UpdateConfig | ExperimentConfigSidecar/Services/ConfigService.cs:54-61 | the update succeeds iff no step throws on the configuration: the pub/sub value parses, every rule and CPU item parses, and a memory value is a number or null; a failed update leaves the CPU manager as it was; on success: the result holds exactly the input pairs whose key is not owned, with unchanged values; a configured pub/sub value installs its parse; configured rule and CPU lists install every item parsed in order; a memory number installs its int64 literal or 0, and a null installs 0 (the correction); unconfigured families are reset, an absent memory key keeps the target, and both managers hold the stored targets |
| ConfigService.UpdateConfigAsWritten | ExperimentConfigSidecar/Services/ConfigService.cs:54-74 | the source's pipeline: succeeds iff no step throws, with a memory value required to be a number; a failed update leaves the CPU manager as it was; on success the same remainder, resets and installed rules, lists and memory target as `UpdateConfig`; a memory value that is not a number, null included, fails the update, and the CPU usages and CPU manager keep their previous values |
| ConfigService.GetPubsubDeterioration | ExperimentConfigSidecar/Services/ConfigService.cs:180-188 | a delay fires iff sample1 < delayProbability and equals the rule's delay; an error fires iff sample2 < errorProbability and is always 500; an absent probability never fires |
| ConfigService.FirstMatch | ExperimentConfigSidecar/Services/ConfigService.cs:198-200 | finds the first rule whose path is absent or a prefix of the request path; nothing iff no rule applies |
| ConfigService.MatchesIsStartsWith | ExperimentConfigSidecar/Services/ConfigService.cs:200 | a rule with a path applies iff the request path starts with it, character by character (a path-less rule always applies, by definition of `Matches`) |
| ConfigService.GetServiceInvocationDeterioration | ExperimentConfigSidecar/Services/ConfigService.cs:196-210 | no applicable rule gives (null, null); otherwise the first applicable rule decides: its delay iff sample1 < its delay probability, its error code iff sample2 < its error probability |
| ConfigService.AddVariableDefinitionsAsWritten | ExperimentConfigSidecar/Services/ConfigService.cs:217-223 | succeeds iff no owned key is already defined, then adds exactly the four owned definitions with default null and keeps every other entry; otherwise throws naming an owned key already present |
| ConfigService.AddVariableDefinitions | ExperimentConfigSidecar/Services/ConfigService.cs:212-223 | the merge the method's comment promises ("Overwrites existing definitions"): the keys are the existing ones plus the four owned keys, owned keys get their schema with default null, overwriting, and the other entries are unchanged |
| ConfigServiceProperties.LastDefinitionWins | ExperimentConfigSidecar/Services/Util.cs:19 | appending a member with a name makes that member's value the one read for the name |
| ConfigServiceProperties.IntPropertyAgreesWithDoubleProperty | ExperimentConfigSidecar/Services/Util.cs:17-45 | a property read as an int reads as the same value through the double accessor |
| ConfigServiceProperties.ConformingPubsubRuleParses | ExperimentConfigSidecar/Services/ConfigService.cs:131-136 | a value matching the pub/sub item schema parses without an exception |
| ConfigServiceProperties.ConformingServiceInvocationRuleParses | ExperimentConfigSidecar/Services/ConfigService.cs:149-159 | a value matching the service-invocation item schema parses without an exception |
| ConfigServiceProperties.ConformingCPUUsageParses | ExperimentConfigSidecar/Services/ConfigService.cs:166-173 | a value matching the CPU item schema parses without an exception |
| ConfigServiceProperties.ConformingConfigIsApplied | ExperimentConfigSidecar/Services/ConfigService.cs:54-61 | a configuration whose owned keys conform to the published schemas is applied in full and returns its remainder |
| ConfigServiceProperties.MemoryNullThrowsAsWritten | ExperimentConfigSidecar/Services/ConfigService.cs:69-71 | the schema admits a null memory value, yet the source's memory step throws on it; the corrected step does not |
| ConfigServiceProperties.UpdateConfigAgreesWithAsWrittenUnlessMemoryNull | ExperimentConfigSidecar/Services/ConfigService.cs:54-74 | the corrected pipeline gives the same state and result as the source's on every configuration whose memory value is not JSON null |
| ConfigServiceProperties.MemoryNullAbortsUpdateAsWritten | ExperimentConfigSidecar/Services/ConfigService.cs:54-74 | on `{artificialMemoryUsage: null, foo: 1}` the source's pipeline fails before the CPU step, leaving CPU state untouched and no remainder; the corrected one returns `{foo: 1}` |
| ConfigServiceProperties.UpdateConfigIdempotent | ExperimentConfigSidecar/Services/ConfigService.cs:54-61 | applying the same configuration twice gives the same state and result as applying it once, also when the update throws |
| ConfigServiceProperties.InvocationFailureIdempotent | ExperimentConfigSidecar/Services/ConfigService.cs:104-121 | idempotence when the service-invocation step throws |
| ConfigServiceProperties.MemoryFailureIdempotent | ExperimentConfigSidecar/Services/ConfigService.cs:67-74 | idempotence when the memory step throws |
| ConfigServiceProperties.LastStepIdempotent | ExperimentConfigSidecar/Services/ConfigService.cs:80-98 | idempotence when the first three steps succeed |
| ConfigServiceProperties.UpdateReplacesRules | ExperimentConfigSidecar/Services/ConfigService.cs:54-61 | the result of an update depends on the configuration alone, and after a successful one the state does too (apart from the memory target kept for an absent key) |
| ConfigServiceProperties.EmptyConfigKeepsInitialState | ExperimentConfigSidecar/Services/ConfigService.cs:16-31 | at process start (no rules, pub/sub rule (0, null, null), no load, idle managers) an empty configuration changes nothing and passes nothing on |
| ConfigServiceProperties.NullPubsubExample | ExperimentConfigSidecar/Services/ConfigService.cs:127-141 | `{pubsubDeterioration: null, foo: 1}` returns `{foo: 1}` and resets the pub/sub rule |
| ConfigServiceProperties.CertainProbabilities | ExperimentConfigSidecar/Services/ConfigService.cs:184-185 | a probability of at least 1 always fires and one of at most 0 never does |
| ConfigServiceProperties.PubsubCertainDelay | ExperimentConfigSidecar/Services/ConfigService.cs:180-188 | with delay probability 1 and error probability 0 every delivery is delayed by the rule's delay and none fails |
| ConfigServiceProperties.PubsubCertainError | ExperimentConfigSidecar/Services/ConfigService.cs:180-188 | with delay probability 0 and error probability 1 every delivery fails with 500 and none is delayed |
| ConfigServiceProperties.PubsubIsCatchAllRule | ExperimentConfigSidecar/Services/ConfigService.cs:180-210 | the pub/sub decision equals the service-invocation decision of one path-less rule with error code 500 |
| ConfigServiceProperties.RulesAfterMatchIgnored | ExperimentConfigSidecar/Services/ConfigService.cs:198-207 | once a rule applies, rules appended after the list do not change the decision |
| ConfigServiceProperties.InapplicableRulesSkipped | ExperimentConfigSidecar/Services/ConfigService.cs:198-209 | rules that do not apply, placed in front, do not change the decision |
| ConfigServiceProperties.FirstMatchExample | ExperimentConfigSidecar/Services/ConfigService.cs:196-210 | with rules ["/a" → 503, catch-all → 500] and certain errors, "/a/x" yields 503 and "/b" yields 500 |
| ConfigServiceProperties.AddVariableDefinitionsAgreeWithoutCollision | ExperimentConfigSidecar/Services/ConfigService.cs:217-223 | without a colliding key the source's `Add` sequence equals the overwriting merge |
| ConfigServiceProperties.OwnedKeyCollisionThrowsAsWritten | ExperimentConfigSidecar/Services/ConfigService.cs:214-219 | an application defining `pubsubDeterioration` makes the source throw, where the overwriting merge replaces its definition |
| Program.PubsubHandlerPath | ExperimentConfigSidecar/Program.cs:74-75 | a request path reaches the pub/sub handler iff it starts with "/_ecs/pubsub/", and the captured path is exactly the rest |
| Program.RewriteRouteAsWritten | ExperimentConfigSidecar/Program.cs:30 | as written: a slashed route reaches the handler, which captures it without its slash; an unslashed route becomes "/_esc/pubsub/" + route, which never reaches the handler |
| Program.RewriteRoute | ExperimentConfigSidecar/Program.cs:30 | the corrected rewrite: every route reaches the handler, which captures the subscribed route without its leading slash |
| Program.PubsubTargetUrl | ExperimentConfigSidecar/Program.cs:76 | a pub/sub delivery goes to a URL under appUrl whose remainder is "/" followed by the captured path |
| Program.FallbackTargetUrl | ExperimentConfigSidecar/Program.cs:85 | a request taken by the fallback goes to a URL under appUrl whose remainder is the request path |
| Program.UnslashedRouteMissesHandlerAsWritten | ExperimentConfigSidecar/Program.cs:30 | as written, every route without a leading '/' is rewritten to a path the pub/sub handler never matches; the delivery is decided by the service-invocation rules instead, and when forwarded it goes to appUrl + "/_esc/pubsub/" + route, not to the subscribed route |
| Program.RewrittenRouteDeliveredToApp | ExperimentConfigSidecar/Program.cs:30 | every corrected rewritten route reaches the pub/sub handler, which forwards to appUrl + "/" + path, that is to the application at the subscribed route |
| Program.Subscriptions | ExperimentConfigSidecar/Program.cs:28-38 | the application's subscriptions in order, with topic and component kept and routes that reach the pub/sub handler, followed by exactly one `config/{serviceName}` subscription on "/_ecs/variables-event", which the pub/sub handler does not take; the handler captures each subscribed application route without its leading '/' |
| Program.FirstAddressed | ExperimentConfigSidecar/Program.cs:44 | finds the first configuration whose replica id equals this replica's; nothing iff none does |
| Program.SelectConfiguration | ExperimentConfigSidecar/Program.cs:44 | the selected configuration is the first one addressed to this replica; none iff no configuration is |
| Program.HandleVariablesEvent | ExperimentConfigSidecar/Program.cs:44-54 | an event with no configuration for this replica changes nothing; otherwise the state is that of `UpdateConfig` on the first addressed configuration, and the remainder is forwarded iff the update succeeded and the remainder is non-empty |
| Program.HandlePubsubDelivery | ExperimentConfigSidecar/Program.cs:74-79 | the pub/sub rule's verdict on the two draws: a fired delay of -1 waits forever and one below -1 throws; otherwise a fired error answers 500 after the fired delay, if any, and no fired error forwards to appUrl + "/" + path after it; the default rule always forwards at once |
| Program.HandleServiceInvocation | ExperimentConfigSidecar/Program.cs:81-88 | the first applicable rule's verdict on the two draws, with that rule's delay and error code, in the same way as for pub/sub; forwarding goes to appUrl + path; with no applicable rule the request is forwarded at once |

## Left out

- HTTP plumbing is not modelled: sending, relaying and writing responses, reading request bodies and content types, endpoint mapping, cloud-event deserialization, and the `/ecs/variables` post with `EnsureSuccessStatusCode`. These are I/O. The model keeps the decisions: which URL, forward or not, what status.
- The `/dapr/subscribe` fetch and the `/_ecs/defined-variables` fetch, including its fallback to an empty dictionary, are left out. Both are I/O around the modelled functions.
- PathTransformer.cs is not part of this model. It is a reverse-proxy transform built on library calls.
- MemoryUsageService, CPUUsageService, StartupService and HeartbeatService are not part of this model. Each pressure manager is reduced to the last target it was given. Allocation, busy-spinning, cancellation and the CPU set difference are left out.
- Randomness is left out: the two draws of `Random.NextDouble()` are parameters of type `Sample`, a real in [0, 1).
- JsonValues.TryGetDouble: returns the literal's exact value, not the nearest double. A comparison with a sample that lies within one rounding step of a probability could come out differently in the source.
- JsonValues.TryGetDouble: reads a number whose magnitude rounds to an infinite double as nothing, following System.Text.Json's reader, which refuses an infinite parse result. The library's documentation says instead that on .NET Core such a value reads as positive or negative infinity, and that behaviour is not modelled. The two differ on a positive overflow only. With `{"pubsubDeterioration": {"errorProbability": 1e309}}` the model reads no error probability, so every delivery is forwarded. Under the documented behaviour the probability is infinite, every sample lies below it, and every delivery gets a 500. The same holds for a delay probability and for the probabilities of a service-invocation rule. A negative overflow behaves the same either way: no sample lies below it.
- ConfigService.Matches: `string.StartsWith(string)` is culture-sensitive in .NET. It is modelled as an ordinal sequence prefix.
- Program.PubsubHandlerPath: ASP.NET route matching is modelled as an ordinal prefix "/_ecs/pubsub/". Case-insensitive literal segments, URL decoding of the captured path and the bare "/_ecs/pubsub" path are left out.
- Program.FallbackTargetUrl: ASP.NET's `MapFallback` route is `{*path:nonfile}`. A request whose last path segment contains a dot (such as `/api/data.json`) matches no endpoint and gets a 404 from the sidecar. The model sends every request the pub/sub handler does not take to the fallback.
- JSON text parsing (`AsJsonElement`) and `Guid.Parse` are left out. The model takes parsed JSON values and parsed 128-bit replica ids, so a malformed id, which would make the source throw, is not modelled.
- Null references are not modelled. This covers a null subscription list, a null route, and a null event payload or variables dictionary; each would make the source throw.
- Kestrel's own validation of the status code set from an error code is not modelled.
- Atomic replacement of the rule store and concurrent readers are not modelled. The source has no synchronization, and the model is sequential.
- ConfigService.UpdateConfig: uses the corrected memory step. A JSON null memory value resets the target to 0, where the source throws (see Findings); `ConfigService.UpdateConfigAsWritten` is the source's pipeline.
- ConfigService.UpdateArtificialMemoryUsage: sets the target to 0 on a JSON null, which the source does not do; it throws there (see Findings).
- Program.HandleVariablesEvent: runs the corrected pipeline. On a JSON null memory value the source's update throws, so the handler fails and posts nothing (`MemoryNullAbortsUpdateAsWritten`); the model applies the value and forwards the remainder.
- Program.Subscriptions: uses the corrected route rewrite, with "/_ecs/pubsub/" in both branches (see Findings).
- Heartbeat events, the variable-definitions wrapper record and the configuration-event wrapper are left out. They are plain records; the event is modelled as its list of `ReplicaConfiguration`s.

## Findings

| source | as written | input that shows it | evidently intended | confidence | as-written member | corrected member |
|---|---|---|---|---|---|---|
| ExperimentConfigSidecar/Services/ConfigService.cs:71 | `value.TryGetInt64(...)` throws `InvalidOperationException` on a JSON null, so the update aborts before the CPU step and no remainder is produced to forward | `{"artificialMemoryUsage": null}`: the memory schema admits it and it is the key's published default | null resets the memory target to 0 and the update completes | high; not executed | ConfigServiceProperties.MemoryNullAbortsUpdateAsWritten | ConfigServiceProperties.ConformingConfigIsApplied |
| ExperimentConfigSidecar/Program.cs:30 | a route without a leading '/' is rewritten to "/_esc/pubsub/" + route, which the "/_ecs/pubsub/{**path}" handler never matches; deliveries fall through to the service-invocation fallback | subscription route "orders" | "/_ecs/pubsub/" + route, delivered to the application at "/orders" under the pub/sub rule | high; not executed | Program.UnslashedRouteMissesHandlerAsWritten | Program.RewrittenRouteDeliveredToApp |
| ExperimentConfigSidecar/Services/ConfigService.cs:219-222 | `Dictionary.Add` throws when the application already defines an owned key, so the definitions request fails | application definitions containing "pubsubDeterioration" | overwrite the colliding definition, as the comment on line 214 says | medium; not executed | ConfigServiceProperties.OwnedKeyCollisionThrowsAsWritten | ConfigService.AddVariableDefinitions |

In each row, the as-written member exhibits the discrepancy; the full as-written definitions are `ConfigService.UpdateArtificialMemoryUsageAsWritten` with `ConfigService.UpdateConfigAsWritten`, `Program.RewriteRouteAsWritten` and `ConfigService.AddVariableDefinitionsAsWritten`. The corrected member proves the intended property of the corrected definition; those definitions are `ConfigService.UpdateArtificialMemoryUsage`, `Program.RewriteRoute` and `ConfigService.AddVariableDefinitions`.

=== FILE: config_property_definitions.dfy ===
/** The four configuration keys the sidecar owns and the JSON schemas it
    publishes for them, the schemas stated as shape predicates over JSON
    values. */
module ConfigPropertyDefinitions {
  import opened JsonValues

  const PubsubDeteriorationKey: string := "pubsubDeterioration"
  const ServiceInvocationDeteriorationKey: string := "serviceInvocationDeterioration"
  const MemoryUsageKey: string := "artificialMemoryUsage"
  const CPUUsageKey: string := "artificialCPUUsage"

  /** The keys consumed by the sidecar rather than passed to the application. */
  const ConfigPropertyKeys: set<string> :=
    {PubsubDeteriorationKey, ServiceInvocationDeteriorationKey, MemoryUsageKey, CPUUsageKey}

  /** The owned key set holds exactly the four keys, and they are distinct. */
  lemma ConfigPropertyKeysAreFourDistinctKeys()
    ensures forall k :: k in ConfigPropertyKeys <==>
      k == "pubsubDeterioration" || k == "serviceInvocationDeterioration"
      || k == "artificialMemoryUsage" || k == "artificialCPUUsage"
    ensures |ConfigPropertyKeys| == 4
  {
  }

  /** JSON Schema `number`. */
  predicate IsJsonNumber(v: Json) {
    v.JNumber?
  }

  /** JSON Schema `integer`: a number without fractional part, however it
      is written (`2.0` is an integer). */
  predicate IsJsonInteger(v: Json) {
    v.JNumber? && v.n.Value().Floor as real == v.n.Value()
  }

  /** An object all of whose members are allowed: with
      `additionalProperties: false` every member must be a listed property
      of the listed type. */
  predicate AllMembers(v: Json, allowed: (string, Json) -> bool) {
    v.JObject? && forall i :: 0 <= i < |v.members| ==> allowed(v.members[i].0, v.members[i].1)
  }

  predicate PubsubMember(name: string, value: Json) {
    || (name == "delayProbability" && IsJsonNumber(value))
    || (name == "errorProbability" && IsJsonNumber(value))
    || (name == "delay" && IsJsonInteger(value))
  }

  predicate ServiceInvocationMember(name: string, value: Json) {
    || (name == "path" && value.JString?)
    || (name == "delayProbability" && IsJsonNumber(value))
    || (name == "delay" && IsJsonInteger(value))
    || (name == "errorProbability" && IsJsonNumber(value))
    || (name == "errorCode" && IsJsonInteger(value))
  }

  predicate CPUUsageMember(name: string, value: Json) {
    || (name == "usageDuration" && IsJsonInteger(value))
    || (name == "pauseDuration" && IsJsonInteger(value))
  }

  predicate PubsubItem(v: Json) {
    AllMembers(v, PubsubMember)
  }

  predicate ServiceInvocationItem(v: Json) {
    AllMembers(v, ServiceInvocationMember)
  }

  /** A CPU item also requires both of its properties. */
  predicate CPUUsageItem(v: Json) {
    && AllMembers(v, CPUUsageMember)
    && HasMember(v.members, "usageDuration")
    && HasMember(v.members, "pauseDuration")
  }

  /** JSON Schema `type: null`. */
  predicate IsJsonNull(v: Json) {
    v.JNull?
  }

  /** JSON Schema `type: array` whose `items` all match `item`. */
  predicate ArrayOf(v: Json, item: Json -> bool) {
    v.JArray? && forall i :: 0 <= i < |v.items| ==> item(v.items[i])
  }

  /** An item, or an array of items. */
  predicate ItemOrArray(v: Json, item: Json -> bool) {
    item(v) || ArrayOf(v, item)
  }

  datatype Schema =
    | PubsubDeteriorationSchema
    | ServiceInvocationDeteriorationSchema
    | MemoryUsageSchema
    | CPUUsageSchema

  /** The `oneOf` alternatives of each schema, in the order they are listed. */
  function Alternatives(schema: Schema): seq<Json -> bool> {
    match schema
    case PubsubDeteriorationSchema => [PubsubItem, IsJsonNull]
    case ServiceInvocationDeteriorationSchema =>
      [ServiceInvocationItem, v => ArrayOf(v, ServiceInvocationItem), IsJsonNull]
    case MemoryUsageSchema => [IsJsonInteger, IsJsonNull]
    case CPUUsageSchema => [CPUUsageItem, v => ArrayOf(v, CPUUsageItem), IsJsonNull]
  }

  /** JSON Schema `oneOf`: exactly one of the alternatives matches. */
  ghost predicate OneOf(alternatives: seq<Json -> bool>, v: Json) {
    exists i :: 0 <= i < |alternatives| && alternatives[i](v)
      && forall j :: 0 <= j < |alternatives| && j != i ==> !alternatives[j](v)
  }

  /** The values a schema accepts: null, an item, or (for the list-valued
      keys) an array of items. */
  predicate Admits(schema: Schema, v: Json) {
    match schema
    case PubsubDeteriorationSchema => v.JNull? || PubsubItem(v)
    case ServiceInvocationDeteriorationSchema => v.JNull? || ItemOrArray(v, ServiceInvocationItem)
    case MemoryUsageSchema => v.JNull? || IsJsonInteger(v)
    case CPUUsageSchema => v.JNull? || ItemOrArray(v, CPUUsageItem)
  }

  /** The alternatives of each schema have different JSON kinds, so a value
      matching any of them matches exactly one, and `oneOf` reduces to the
      disjunction `Admits` states. */
  lemma AdmitsIsOneOf(schema: Schema, v: Json)
    ensures Admits(schema, v) <==> OneOf(Alternatives(schema), v)
  {
    var alternatives := Alternatives(schema);
    if Admits(schema, v) {
      var i := if v.JNull? then |alternatives| - 1 else if v.JArray? then 1 else 0;
      assert alternatives[i](v);
      assert forall j :: 0 <= j < |alternatives| && j != i ==> !alternatives[j](v);
    } else {
      assert forall i :: 0 <= i < |alternatives| ==> !alternatives[i](v);
    }
  }

  /** The schema published for each owned key; each key has its own. */
  function SchemaFor(key: string): (s: Schema)
    requires key in ConfigPropertyKeys
    ensures s == PubsubDeteriorationSchema <==> key == PubsubDeteriorationKey
    ensures s == ServiceInvocationDeteriorationSchema <==> key == ServiceInvocationDeteriorationKey
    ensures s == MemoryUsageSchema <==> key == MemoryUsageKey
    ensures s == CPUUsageSchema <==> key == CPUUsageKey
  {
    if key == PubsubDeteriorationKey then PubsubDeteriorationSchema
    else if key == ServiceInvocationDeteriorationKey then ServiceInvocationDeteriorationSchema
    else if key == MemoryUsageKey then MemoryUsageSchema
    else CPUUsageSchema
  }

  /** The default value published with every owned key: JSON null, which
      every one of the schemas admits. */
  function DefaultValue(schema: Schema): (v: Json)
    ensures Admits(schema, v)
    ensures KindOf(v) == Null
  {
    JNull
  }
}

=== FILE: config_service.dfy ===
/** The sidecar's rule engine: the rule store with the two pressure
    managers, the update pipeline that consumes the sidecar-owned keys of a
    configuration, the deterioration decisions, and the augmentation of the
    application's variable definitions. */
module ConfigService {
  import opened Wrappers
  import opened JsonValues
  import opened Models
  import opened Util
  import opened ConfigPropertyDefinitions

  /** An untyped configuration: variable name to JSON value. */
  type Bag = map<string, Json>

  /** The memory pressure manager, reduced to the last target it was given. */
  datatype MemoryUsageService = MemoryUsageService(target: int64)

  /** The CPU pressure manager, reduced to the last target set it was given. */
  datatype CPUUsageService = CPUUsageService(usages: seq<CPUUsage>)

  /** The state of the configuration service. */
  datatype ServiceState = ServiceState(
    serviceInvocationRules: seq<ServiceInvocationDeteriorationRule>,
    pubsubRule: PubsubDeteriorationRule,
    artificialMemoryUsage: int64,
    artificialCPUUsage: seq<CPUUsage>,
    memoryUsageService: MemoryUsageService,
    cpuUsageService: CPUUsageService)

  const DefaultPubsubRule := PubsubDeteriorationRule(0, None, None)

  /** The state at process start: no rules, the pub/sub rule (0, null,
      null), no memory or CPU load, and both managers idle. */
  const InitialState := ServiceState([], DefaultPubsubRule, 0, [], MemoryUsageService(0), CPUUsageService([]))

  /** The state after one update step, and the exception the step threw, if
      any. A throwing step keeps whatever it had already assigned. */
  datatype Step = Step(state: ServiceState, error: Option<JsonError>)

  /** The outcome of a whole update: the resulting state, and either the
      remaining configuration or the exception that aborted the update. */
  datatype UpdateResult = UpdateResult(state: ServiceState, remaining: Result<Bag, JsonError>)

  /** The key is present with a value other than JSON null. */
  predicate Configured(config: Bag, key: string) {
    key in config && !IsNull(config[key])
  }

  /** A property that is absent or has the kind `ok` accepts. */
  predicate MissingOr(v: Json, name: string, ok: Json -> bool)
    requires v.JObject?
  {
    !HasMember(v.members, name) || ok(Property(v, name))
  }

  /** An optional property read by `GetIntProperty ?? default`: the property's
      value when it is an in-range integer literal, `default` otherwise. */
  predicate IntOrDefault(v: Json, name: string, x: int32, default: int32)
    requires v.JObject?
  {
    if HasMember(v.members, name) && Property(v, name).JNumber? && Property(v, name).n.IntegerLiteral?
       && -0x8000_0000 <= Property(v, name).n.i < 0x8000_0000
    then x as int == Property(v, name).n.i
    else x == default
  }

  /** An optional property read by `GetDoubleProperty`: absent when the
      property is missing or overflows, the number's value otherwise. */
  predicate DoubleOrNone(v: Json, name: string, x: Option<real>)
    requires v.JObject?
  {
    if HasMember(v.members, name) && Property(v, name).JNumber?
       && -DoubleOverflow < Property(v, name).n.Value() < DoubleOverflow
    then x == Some(Property(v, name).n.Value())
    else x == None
  }

  // ---------------------------------------------------------------------
  // Parsing single rules

  /** The pub/sub rule of an object; `delay` defaults to 0 and missing
      probabilities stay absent. Throws when `v` is not an object or a
      property has the wrong kind. */
  function ParsePubsubRule(v: Json): (r: Result<PubsubDeteriorationRule, JsonError>)
    ensures r.Success? <==>
      v.JObject? && MissingOr(v, "delay", IsJsonNumber)
      && MissingOr(v, "delayProbability", IsJsonNumber) && MissingOr(v, "errorProbability", IsJsonNumber)
    ensures r.Success? ==>
      && IntOrDefault(v, "delay", r.value.delay, 0)
      && DoubleOrNone(v, "delayProbability", r.value.delayProbability)
      && DoubleOrNone(v, "errorProbability", r.value.errorProbability)
  {
    var delay :- GetIntProperty(v, "delay");
    var delayProbability :- GetDoubleProperty(v, "delayProbability");
    var errorProbability :- GetDoubleProperty(v, "errorProbability");
    Success(PubsubDeteriorationRule(delay.GetOr(0), delayProbability, errorProbability))
  }

  predicate StringOrNull(v: Json) {
    v.JString? || v.JNull?
  }

  /** One service-invocation rule; `delay` defaults to 0, `errorCode` to
      500, and `path` stays absent when missing or null. */
  function ParseServiceInvocationRule(v: Json): (r: Result<ServiceInvocationDeteriorationRule, JsonError>)
    ensures r.Success? <==>
      v.JObject? && MissingOr(v, "path", StringOrNull)
      && MissingOr(v, "delayProbability", IsJsonNumber) && MissingOr(v, "delay", IsJsonNumber)
      && MissingOr(v, "errorProbability", IsJsonNumber) && MissingOr(v, "errorCode", IsJsonNumber)
    ensures r.Success? ==>
      && (r.value.path.Some? <==> HasMember(v.members, "path") && Property(v, "path").JString?)
      && (r.value.path.Some? ==> Property(v, "path") == JString(r.value.path.value))
      && DoubleOrNone(v, "delayProbability", r.value.delayProbability)
      && IntOrDefault(v, "delay", r.value.delay, 0)
      && DoubleOrNone(v, "errorProbability", r.value.errorProbability)
      && IntOrDefault(v, "errorCode", r.value.errorCode, 500)
  {
    var path :- GetStringProperty(v, "path");
    var delayProbability :- GetDoubleProperty(v, "delayProbability");
    var delay :- GetIntProperty(v, "delay");
    var errorProbability :- GetDoubleProperty(v, "errorProbability");
    var errorCode :- GetIntProperty(v, "errorCode");
    Success(ServiceInvocationDeteriorationRule(path, delayProbability, delay.GetOr(0), errorProbability, errorCode.GetOr(500)))
  }

  /** One CPU usage; both durations default to 0. */
  function ParseCPUUsage(v: Json): (r: Result<CPUUsage, JsonError>)
    ensures r.Success? <==>
      v.JObject? && MissingOr(v, "usageDuration", IsJsonNumber) && MissingOr(v, "pauseDuration", IsJsonNumber)
    ensures r.Success? ==>
      IntOrDefault(v, "usageDuration", r.value.usageDuration, 0)
      && IntOrDefault(v, "pauseDuration", r.value.pauseDuration, 0)
  {
    var usageDuration :- GetIntProperty(v, "usageDuration");
    var pauseDuration :- GetIntProperty(v, "pauseDuration");
    Success(CPUUsage(usageDuration.GetOr(0), pauseDuration.GetOr(0)))
  }

  // ---------------------------------------------------------------------
  // Parsing lists

  /** `parsed` holds the parses of the leading items, in order, up to the
      first item whose parse threw `error`, or of all items when none threw. */
  ghost predicate ParsedPrefix<T>(items: seq<Json>, parse: Json -> Result<T, JsonError>,
                                  parsed: seq<T>, error: Option<JsonError>)
  {
    && |parsed| <= |items|
    && (forall i :: 0 <= i < |parsed| ==> parse(items[i]) == Success(parsed[i]))
    && (error.None? <==> |parsed| == |items|)
    && (error.Some? ==> parse(items[|parsed|]) == Failure(error.value))
  }

  /** Appending each item's parse to a list in a `foreach` loop: the list
      keeps the items parsed before an exception. */
  function ParseEach<T>(items: seq<Json>, parse: Json -> Result<T, JsonError>): (r: (seq<T>, Option<JsonError>))
    ensures ParsedPrefix(items, parse, r.0, r.1)
  {
    if |items| == 0 then ([], None)
    else match parse(items[0])
      case Failure(e) => ([], Some(e))
      case Success(x) =>
        var rest := ParseEach(items[1..], parse);
        ([x] + rest.0, rest.1)
  }

  /** The items a configured list value describes: a single object is one
      item, an array its elements in order. */
  function Items(v: Json): seq<Json> {
    if v.JObject? then [v] else if v.JArray? then v.items else []
  }

  // ---------------------------------------------------------------------
  // The four update steps

  function UpdatePubsubDeterioration(s: ServiceState, config: Bag): (r: Step)
    ensures r.state == s.(pubsubRule := r.state.pubsubRule)
    ensures !Configured(config, PubsubDeteriorationKey) ==>
      r.error.None? && r.state.pubsubRule == PubsubDeteriorationRule(0, None, None)
    ensures Configured(config, PubsubDeteriorationKey) ==>
      var parsed := ParsePubsubRule(config[PubsubDeteriorationKey]);
      && (r.error.None? <==> parsed.Success?)
      && (r.error.None? ==> r.state.pubsubRule == parsed.value)
      && (r.error.Some? ==> r.state == s && r.error.value == parsed.error)
  {
    if Configured(config, PubsubDeteriorationKey) then
      match ParsePubsubRule(config[PubsubDeteriorationKey])
      case Success(rule) => Step(s.(pubsubRule := rule), None)
      case Failure(e) => Step(s, Some(e))
    else Step(s.(pubsubRule := DefaultPubsubRule), None)
  }

  function UpdateServiceInvocationDeterioration(s: ServiceState, config: Bag): (r: Step)
    ensures r.state == s.(serviceInvocationRules := r.state.serviceInvocationRules)
    ensures !Configured(config, ServiceInvocationDeteriorationKey) ==>
      r.error.None? && r.state.serviceInvocationRules == []
    ensures Configured(config, ServiceInvocationDeteriorationKey) ==>
      var v := config[ServiceInvocationDeteriorationKey];
      if v.JObject? || v.JArray? then
        ParsedPrefix(Items(v), ParseServiceInvocationRule, r.state.serviceInvocationRules, r.error)
      else
        r.state.serviceInvocationRules == [] && r.error == Some(KindMismatch(Array, KindOf(v)))
  {
    var cleared := s.(serviceInvocationRules := []);
    if Configured(config, ServiceInvocationDeteriorationKey) then
      var v := config[ServiceInvocationDeteriorationKey];
      if v.JObject? then
        match ParseServiceInvocationRule(v)
        case Success(rule) => Step(cleared.(serviceInvocationRules := [rule]), None)
        case Failure(e) => Step(cleared, Some(e))
      else if v.JArray? then
        var (rules, error) := ParseEach(v.items, ParseServiceInvocationRule);
        Step(cleared.(serviceInvocationRules := rules), error)
      else Step(cleared, Some(KindMismatch(Array, KindOf(v))))
    else Step(cleared, None)
  }

  /** The memory step as the source writes it: `TryGetInt64` throws on any
      non-number, JSON null included. */
  function UpdateArtificialMemoryUsageAsWritten(s: ServiceState, config: Bag): (r: Step)
    ensures MemoryUsageKey in config && !config[MemoryUsageKey].JNumber? ==>
      r == Step(s, Some(KindMismatch(Number, KindOf(config[MemoryUsageKey]))))
    ensures r.error.None? ==>
      r.state == s.(artificialMemoryUsage := r.state.artificialMemoryUsage,
                    memoryUsageService := MemoryUsageService(r.state.artificialMemoryUsage))
    ensures MemoryUsageKey !in config ==> r.error.None? && r.state.artificialMemoryUsage == s.artificialMemoryUsage
    ensures MemoryUsageKey in config && config[MemoryUsageKey].JNumber? ==>
      var n := config[MemoryUsageKey].n;
      && r.error.None?
      && if n.IntegerLiteral? && -0x8000_0000_0000_0000 <= n.i < 0x8000_0000_0000_0000
         then r.state.artificialMemoryUsage as int == n.i
         else r.state.artificialMemoryUsage == 0
  {
    if MemoryUsageKey in config then
      match TryGetInt64(config[MemoryUsageKey])
      case Failure(e) => Step(s, Some(e))
      case Success(leak) =>
        var usage := leak.GetOr(0);
        Step(s.(artificialMemoryUsage := usage, memoryUsageService := MemoryUsageService(usage)), None)
    else Step(s.(memoryUsageService := MemoryUsageService(s.artificialMemoryUsage)), None)
  }

  /** The memory step with JSON null read as "no artificial memory", which
      is what the published schema and default value call for. An absent key
      keeps the previous target, which is handed to the manager again. */
  function UpdateArtificialMemoryUsage(s: ServiceState, config: Bag): (r: Step)
    ensures r.error.None? ==>
      r.state == s.(artificialMemoryUsage := r.state.artificialMemoryUsage,
                    memoryUsageService := MemoryUsageService(r.state.artificialMemoryUsage))
    ensures MemoryUsageKey !in config ==> r.error.None? && r.state.artificialMemoryUsage == s.artificialMemoryUsage
    ensures MemoryUsageKey in config && config[MemoryUsageKey].JNull? ==>
      r.error.None? && r.state.artificialMemoryUsage == 0
    ensures MemoryUsageKey in config && config[MemoryUsageKey].JNumber? ==>
      var n := config[MemoryUsageKey].n;
      && r.error.None?
      && if n.IntegerLiteral? && -0x8000_0000_0000_0000 <= n.i < 0x8000_0000_0000_0000
         then r.state.artificialMemoryUsage as int == n.i
         else r.state.artificialMemoryUsage == 0
    ensures MemoryUsageKey in config && !config[MemoryUsageKey].JNumber? && !config[MemoryUsageKey].JNull? ==>
      r == Step(s, Some(KindMismatch(Number, KindOf(config[MemoryUsageKey]))))
  {
    if MemoryUsageKey in config && IsNull(config[MemoryUsageKey]) then
      Step(s.(artificialMemoryUsage := 0, memoryUsageService := MemoryUsageService(0)), None)
    else UpdateArtificialMemoryUsageAsWritten(s, config)
  }

  function UpdateArtificialCPUUsage(s: ServiceState, config: Bag): (r: Step)
    ensures r.state == s.(artificialCPUUsage := r.state.artificialCPUUsage, cpuUsageService := r.state.cpuUsageService)
    ensures r.error.None? ==> r.state.cpuUsageService == CPUUsageService(r.state.artificialCPUUsage)
    ensures r.error.Some? ==> r.state.cpuUsageService == s.cpuUsageService
    ensures !Configured(config, CPUUsageKey) ==> r.error.None? && r.state.artificialCPUUsage == []
    ensures Configured(config, CPUUsageKey) ==>
      var v := config[CPUUsageKey];
      if v.JObject? || v.JArray? then
        ParsedPrefix(Items(v), ParseCPUUsage, r.state.artificialCPUUsage, r.error)
      else
        r.state.artificialCPUUsage == [] && r.error == Some(KindMismatch(Array, KindOf(v)))
  {
    var cleared := s.(artificialCPUUsage := []);
    if Configured(config, CPUUsageKey) then
      var v := config[CPUUsageKey];
      if v.JObject? then
        match ParseCPUUsage(v)
        case Success(usage) => Step(cleared.(artificialCPUUsage := [usage], cpuUsageService := CPUUsageService([usage])), None)
        case Failure(e) => Step(cleared, Some(e))
      else if v.JArray? then
        var (usages, error) := ParseEach(v.items, ParseCPUUsage);
        var partial := cleared.(artificialCPUUsage := usages);
        if error.None? then Step(partial.(cpuUsageService := CPUUsageService(usages)), None)
        else Step(partial, error)
      else Step(cleared, Some(KindMismatch(Array, KindOf(v))))
    else Step(cleared.(cpuUsageService := CPUUsageService([])), None)
  }

  // ---------------------------------------------------------------------
  // The pipeline

  /** A configured list value every item of which parses: the value is an
      object or an array, and no item's parse throws. */
  ghost predicate ItemsParse<T>(v: Json, parse: Json -> Result<T, JsonError>) {
    && (v.JObject? || v.JArray?)
    && forall i :: 0 <= i < |Items(v)| ==> parse(Items(v)[i]).Success?
  }

  /** No step of the update throws on `config`: the configured pub/sub value
      parses, every configured service-invocation rule and CPU usage parses,
      and a present memory value is a number (or JSON null, when
      `nullMemoryOk`). */
  ghost predicate StepsAccept(config: Bag, nullMemoryOk: bool) {
    && (Configured(config, PubsubDeteriorationKey) ==> ParsePubsubRule(config[PubsubDeteriorationKey]).Success?)
    && (Configured(config, ServiceInvocationDeteriorationKey) ==>
          ItemsParse(config[ServiceInvocationDeteriorationKey], ParseServiceInvocationRule))
    && (MemoryUsageKey in config ==>
          config[MemoryUsageKey].JNumber? || (nullMemoryOk && config[MemoryUsageKey].JNull?))
    && (Configured(config, CPUUsageKey) ==> ItemsParse(config[CPUUsageKey], ParseCPUUsage))
  }

  /** What a successful update installs for the keys the configuration
      sets: the parsed pub/sub rule, every service-invocation rule and CPU
      usage parsed in order, and the memory target a number denotes (an
      int64 literal's value, 0 for any other number). */
  ghost predicate InstallsConfigured(config: Bag, t: ServiceState) {
    && (Configured(config, PubsubDeteriorationKey) ==>
          ParsePubsubRule(config[PubsubDeteriorationKey]) == Success(t.pubsubRule))
    && (Configured(config, ServiceInvocationDeteriorationKey) ==>
          ParsedPrefix(Items(config[ServiceInvocationDeteriorationKey]), ParseServiceInvocationRule, t.serviceInvocationRules, None))
    && (Configured(config, CPUUsageKey) ==>
          ParsedPrefix(Items(config[CPUUsageKey]), ParseCPUUsage, t.artificialCPUUsage, None))
    && (MemoryUsageKey in config && config[MemoryUsageKey].JNumber? ==>
          var n := config[MemoryUsageKey].n;
          if n.IntegerLiteral? && -0x8000_0000_0000_0000 <= n.i < 0x8000_0000_0000_0000
          then t.artificialMemoryUsage as int == n.i
          else t.artificialMemoryUsage == 0)
  }

  /** Runs the four steps in source order (pub/sub, service invocation,
      memory, CPU); the first exception aborts the rest. On success returns
      the configuration without the sidecar-owned keys. */
  function UpdateConfig(s: ServiceState, config: Bag): (r: UpdateResult)
    ensures r.remaining.Success? ==>
      forall k :: k in r.remaining.value <==> k in config && k !in ConfigPropertyKeys
    ensures r.remaining.Success? ==>
      forall k :: k in r.remaining.value ==> r.remaining.value[k] == config[k]
    ensures !Configured(config, PubsubDeteriorationKey) ==> r.state.pubsubRule == PubsubDeteriorationRule(0, None, None)
    ensures r.remaining.Success? ==>
      && (!Configured(config, ServiceInvocationDeteriorationKey) ==> r.state.serviceInvocationRules == [])
      && (!Configured(config, CPUUsageKey) ==> r.state.artificialCPUUsage == [])
      && (MemoryUsageKey !in config ==> r.state.artificialMemoryUsage == s.artificialMemoryUsage)
      && r.state.memoryUsageService.target == r.state.artificialMemoryUsage
      && r.state.cpuUsageService.usages == r.state.artificialCPUUsage
    ensures r.remaining.Success? <==> StepsAccept(config, true)
    ensures r.remaining.Failure? ==> r.state.cpuUsageService == s.cpuUsageService
    ensures r.remaining.Success? ==> InstallsConfigured(config, r.state)
    ensures r.remaining.Success? && MemoryUsageKey in config && config[MemoryUsageKey].JNull? ==>
      r.state.artificialMemoryUsage == 0
  {
    var p := UpdatePubsubDeterioration(s, config);
    if p.error.Some? then UpdateResult(p.state, Failure(p.error.value)) else
    var i := UpdateServiceInvocationDeterioration(p.state, config);
    if i.error.Some? then UpdateResult(i.state, Failure(i.error.value)) else
    var m := UpdateArtificialMemoryUsage(i.state, config);
    if m.error.Some? then UpdateResult(m.state, Failure(m.error.value)) else
    var c := UpdateArtificialCPUUsage(m.state, config);
    if c.error.Some? then UpdateResult(c.state, Failure(c.error.value)) else
    UpdateResult(c.state, Success(config - ConfigPropertyKeys))
  }

  /** The pipeline as the source runs it, with the as-written memory step:
      a memory value that is not a number, JSON null included, aborts the
      update before the CPU step, so the CPU usages and their manager keep
      their previous values and no remaining configuration is produced. */
  function UpdateConfigAsWritten(s: ServiceState, config: Bag): (r: UpdateResult)
    ensures r.remaining.Success? ==>
      forall k :: k in r.remaining.value <==> k in config && k !in ConfigPropertyKeys
    ensures r.remaining.Success? ==>
      forall k :: k in r.remaining.value ==> r.remaining.value[k] == config[k]
    ensures !Configured(config, PubsubDeteriorationKey) ==> r.state.pubsubRule == PubsubDeteriorationRule(0, None, None)
    ensures r.remaining.Success? ==>
      && (!Configured(config, ServiceInvocationDeteriorationKey) ==> r.state.serviceInvocationRules == [])
      && (!Configured(config, CPUUsageKey) ==> r.state.artificialCPUUsage == [])
      && (MemoryUsageKey !in config ==> r.state.artificialMemoryUsage == s.artificialMemoryUsage)
      && r.state.memoryUsageService.target == r.state.artificialMemoryUsage
      && r.state.cpuUsageService.usages == r.state.artificialCPUUsage
    ensures r.remaining.Success? <==> StepsAccept(config, false)
    ensures r.remaining.Failure? ==> r.state.cpuUsageService == s.cpuUsageService
    ensures r.remaining.Success? ==> InstallsConfigured(config, r.state)
    ensures MemoryUsageKey in config && !config[MemoryUsageKey].JNumber? ==>
      && r.remaining.Failure?
      && r.state.artificialCPUUsage == s.artificialCPUUsage
      && r.state.cpuUsageService == s.cpuUsageService
  {
    var p := UpdatePubsubDeterioration(s, config);
    if p.error.Some? then UpdateResult(p.state, Failure(p.error.value)) else
    var i := UpdateServiceInvocationDeterioration(p.state, config);
    if i.error.Some? then UpdateResult(i.state, Failure(i.error.value)) else
    var m := UpdateArtificialMemoryUsageAsWritten(i.state, config);
    if m.error.Some? then UpdateResult(m.state, Failure(m.error.value)) else
    var c := UpdateArtificialCPUUsage(m.state, config);
    if c.error.Some? then UpdateResult(c.state, Failure(c.error.value)) else
    UpdateResult(c.state, Success(config - ConfigPropertyKeys))
  }

  // ---------------------------------------------------------------------
  // Deterioration decisions

  /** `sample < probability` with C#'s lifted comparison: an absent
      probability compares false. */
  predicate Fires(probability: Option<real>, sample: Sample) {
    probability.Some? && sample < probability.value
  }

  /** The pub/sub verdict. `sample1` and `sample2` stand for the two draws
      of `Random.NextDouble()`, in call order. */
  function GetPubsubDeterioration(s: ServiceState, sample1: Sample, sample2: Sample): (d: Deterioration)
    ensures d.delay.Some? ==> d.delay.value == s.pubsubRule.delay
    ensures d.errorCode.Some? ==> d.errorCode.value == 500
    ensures s.pubsubRule.delayProbability.None? ==> d.delay.None?
    ensures s.pubsubRule.errorProbability.None? ==> d.errorCode.None?
    ensures s.pubsubRule.delayProbability.Some? ==> (d.delay.Some? <==> sample1 < s.pubsubRule.delayProbability.value)
    ensures s.pubsubRule.errorProbability.Some? ==> (d.errorCode.Some? <==> sample2 < s.pubsubRule.errorProbability.value)
  {
    var rule := s.pubsubRule;
    Deterioration(
      if Fires(rule.delayProbability, sample1) then Some(rule.delay) else None,
      if Fires(rule.errorProbability, sample2) then Some(500) else None)
  }

  /** A rule applies when it has no path or its path is a prefix of the
      request path (compared ordinally). */
  predicate Matches(rule: ServiceInvocationDeteriorationRule, path: string) {
    rule.path.None? || rule.path.value <= path
  }

  /** A rule with a path applies exactly when the request path starts with
      it, character by character. */
  lemma MatchesIsStartsWith(rule: ServiceInvocationDeteriorationRule, path: string)
    requires rule.path.Some?
    ensures Matches(rule, path) <==>
      |rule.path.value| <= |path| && forall i :: 0 <= i < |rule.path.value| ==> path[i] == rule.path.value[i]
  {
  }

  predicate IsFirstMatch(rules: seq<ServiceInvocationDeteriorationRule>, path: string, k: int) {
    && 0 <= k < |rules|
    && Matches(rules[k], path)
    && forall j :: 0 <= j < k ==> !Matches(rules[j], path)
  }

  /** The index of the first applicable rule, as the `foreach` with an early
      return finds it. */
  function FirstMatch(rules: seq<ServiceInvocationDeteriorationRule>, path: string): (r: Option<nat>)
    ensures r.Some? ==> IsFirstMatch(rules, path, r.value)
    ensures r.None? <==> forall j :: 0 <= j < |rules| ==> !Matches(rules[j], path)
  {
    if |rules| == 0 then None
    else if Matches(rules[0], path) then Some(0)
    else match FirstMatch(rules[1..], path)
      case None => None
      case Some(k) => Some(k + 1)
  }

  /** The service-invocation verdict: the first applicable rule decides,
      with its own delay and error code; no applicable rule, no
      deterioration. */
  function GetServiceInvocationDeterioration(s: ServiceState, path: string, sample1: Sample, sample2: Sample): (d: Deterioration)
    ensures (forall j :: 0 <= j < |s.serviceInvocationRules| ==> !Matches(s.serviceInvocationRules[j], path)) ==>
      d == Deterioration(None, None)
    ensures forall k :: IsFirstMatch(s.serviceInvocationRules, path, k) ==>
      var rule := s.serviceInvocationRules[k];
      && (d.delay.Some? <==> rule.delayProbability.Some? && sample1 < rule.delayProbability.value)
      && (d.delay.Some? ==> d.delay.value == rule.delay)
      && (d.errorCode.Some? <==> rule.errorProbability.Some? && sample2 < rule.errorProbability.value)
      && (d.errorCode.Some? ==> d.errorCode.value == rule.errorCode)
  {
    match FirstMatch(s.serviceInvocationRules, path)
    case None => Deterioration(None, None)
    case Some(k) =>
      var rule := s.serviceInvocationRules[k];
      assert forall k' :: IsFirstMatch(s.serviceInvocationRules, path, k') ==> k' == k;
      Deterioration(
        if Fires(rule.delayProbability, sample1) then Some(rule.delay) else None,
        if Fires(rule.errorProbability, sample2) then Some(rule.errorCode) else None)
  }

  // ---------------------------------------------------------------------
  // Variable definitions

  /** A variable definition: its schema and its default value. */
  datatype VariableDefinition = VariableDefinition(schema: Schema, defaultValue: Json)

  /** The definition published for each owned key. */
  function OwnedDefinition(key: string): VariableDefinition
    requires key in ConfigPropertyKeys
  {
    VariableDefinition(SchemaFor(key), DefaultValue(SchemaFor(key)))
  }

  /** Adding the four definitions with `Dictionary.Add`, in source order:
      the first key already present throws, and the handler discards the
      dictionary. */
  function AddVariableDefinitionsAsWritten(existing: map<string, VariableDefinition>): (r: Result<map<string, VariableDefinition>, string>)
    ensures r.Success? <==> existing.Keys !! ConfigPropertyKeys
    ensures r.Failure? ==> r.error in existing && r.error in ConfigPropertyKeys
    ensures r.Success? ==> r.value.Keys == existing.Keys + ConfigPropertyKeys
    ensures r.Success? ==> forall k :: k in existing ==> r.value[k] == existing[k]
    ensures r.Success? ==> forall k :: k in ConfigPropertyKeys ==> r.value[k] == VariableDefinition(SchemaFor(k), JNull)
  {
    if PubsubDeteriorationKey in existing then Failure(PubsubDeteriorationKey)
    else if ServiceInvocationDeteriorationKey in existing then Failure(ServiceInvocationDeteriorationKey)
    else if MemoryUsageKey in existing then Failure(MemoryUsageKey)
    else if CPUUsageKey in existing then Failure(CPUUsageKey)
    else
      Success(existing
        [PubsubDeteriorationKey := OwnedDefinition(PubsubDeteriorationKey)]
        [ServiceInvocationDeteriorationKey := OwnedDefinition(ServiceInvocationDeteriorationKey)]
        [MemoryUsageKey := OwnedDefinition(MemoryUsageKey)]
        [CPUUsageKey := OwnedDefinition(CPUUsageKey)])
  }

  /** Merging the four definitions into the application's, overwriting any
      definition the application gives for an owned key. */
  function AddVariableDefinitions(existing: map<string, VariableDefinition>): (r: map<string, VariableDefinition>)
    ensures r.Keys == existing.Keys + ConfigPropertyKeys
    ensures forall k :: k in ConfigPropertyKeys ==> r[k] == VariableDefinition(SchemaFor(k), JNull)
    ensures forall k :: k in existing && k !in ConfigPropertyKeys ==> r[k] == existing[k]
  {
    existing + map k | k in ConfigPropertyKeys :: OwnedDefinition(k)
  }
}

=== FILE: config_service_properties.dfy ===
/** Properties of the rule engine that relate several calls: idempotence of
    the update pipeline, acceptance of every schema-conforming
    configuration, first-match behaviour of the rule list, and concrete
    configurations worked through the pipeline and the decisions. */
module ConfigServiceProperties {
  import opened Wrappers
  import opened JsonValues
  import opened Models
  import opened Util
  import opened ConfigPropertyDefinitions
  import opened ConfigService

  // ---------------------------------------------------------------------
  // JSON accessors

  /** When the property is defined more than once, the last definition is
      the one read. */
  lemma LastDefinitionWins(members: seq<(string, Json)>, name: string, v: Json)
    ensures Lookup(members + [(name, v)], name) == Some(v)
  {
  }

  /** An integer-valued property reads the same through both numeric
      accessors. */
  lemma IntPropertyAgreesWithDoubleProperty(e: Json, name: string)
    requires GetIntProperty(e, name).Success? && GetIntProperty(e, name).value.Some?
    ensures GetDoubleProperty(e, name) == Success(Some(GetIntProperty(e, name).value.value as real))
  {
  }

  // ---------------------------------------------------------------------
  // Schema-conforming configurations are applied

  lemma ConformingPubsubRuleParses(v: Json)
    requires PubsubItem(v)
    ensures ParsePubsubRule(v).Success?
  {
  }

  lemma ConformingServiceInvocationRuleParses(v: Json)
    requires ServiceInvocationItem(v)
    ensures ParseServiceInvocationRule(v).Success?
  {
  }

  lemma ConformingCPUUsageParses(v: Json)
    requires CPUUsageItem(v)
    ensures ParseCPUUsage(v).Success?
  {
  }

  /** Every owned key that is present holds a value its published schema
      admits. */
  ghost predicate ConformsToSchemas(config: Bag) {
    forall k :: k in config && k in ConfigPropertyKeys ==> Admits(SchemaFor(k), config[k])
  }

  /** A configuration whose owned keys conform to the published schemas is
      applied in full: no step throws and the remainder is returned. This
      holds only because the memory step reads JSON null as 0. */
  lemma ConformingConfigIsApplied(s: ServiceState, config: Bag)
    requires ConformsToSchemas(config)
    ensures UpdateConfig(s, config).remaining.Success?
  {
    var p := UpdatePubsubDeterioration(s, config);
    if Configured(config, PubsubDeteriorationKey) {
      assert Admits(SchemaFor(PubsubDeteriorationKey), config[PubsubDeteriorationKey]);
      ConformingPubsubRuleParses(config[PubsubDeteriorationKey]);
    }
    assert p.error.None?;
    var i := UpdateServiceInvocationDeterioration(p.state, config);
    if Configured(config, ServiceInvocationDeteriorationKey) {
      var v := config[ServiceInvocationDeteriorationKey];
      assert Admits(SchemaFor(ServiceInvocationDeteriorationKey), v);
      if v.JObject? {
        ConformingServiceInvocationRuleParses(v);
      } else {
        assert v.JArray?;
        forall j | 0 <= j < |v.items| ensures ParseServiceInvocationRule(v.items[j]).Success? {
          ConformingServiceInvocationRuleParses(v.items[j]);
        }
      }
    }
    assert i.error.None?;
    var m := UpdateArtificialMemoryUsage(i.state, config);
    if MemoryUsageKey in config {
      assert Admits(SchemaFor(MemoryUsageKey), config[MemoryUsageKey]);
    }
    assert m.error.None?;
    var c := UpdateArtificialCPUUsage(m.state, config);
    if Configured(config, CPUUsageKey) {
      var v := config[CPUUsageKey];
      assert Admits(SchemaFor(CPUUsageKey), v);
      if v.JObject? {
        ConformingCPUUsageParses(v);
      } else {
        assert v.JArray?;
        forall j | 0 <= j < |v.items| ensures ParseCPUUsage(v.items[j]).Success? {
          ConformingCPUUsageParses(v.items[j]);
        }
      }
    }
    assert c.error.None?;
  }

  /** As written, the memory step throws on the JSON null that the memory
      schema admits and that is published as the key's default value. */
  lemma MemoryNullThrowsAsWritten(s: ServiceState)
    ensures Admits(SchemaFor(MemoryUsageKey), JNull)
    ensures UpdateArtificialMemoryUsageAsWritten(s, map[MemoryUsageKey := JNull]).error == Some(KindMismatch(Number, Null))
    ensures UpdateArtificialMemoryUsage(s, map[MemoryUsageKey := JNull]).error.None?
  {
  }

  /** The corrected pipeline departs from the source's only on a JSON null
      memory value. */
  lemma UpdateConfigAgreesWithAsWrittenUnlessMemoryNull(s: ServiceState, config: Bag)
    requires !(MemoryUsageKey in config && config[MemoryUsageKey].JNull?)
    ensures UpdateConfig(s, config) == UpdateConfigAsWritten(s, config)
  {
  }

  /** `{artificialMemoryUsage: null, foo: 1}`: as written, the update throws
      before the CPU step and leaves no remaining configuration to forward;
      corrected, it completes and leaves `{foo: 1}` for the application. */
  lemma MemoryNullAbortsUpdateAsWritten(s: ServiceState)
    ensures var config := map[MemoryUsageKey := JNull, "foo" := JNumber(IntegerLiteral(1))];
      && UpdateConfigAsWritten(s, config).remaining == Failure(KindMismatch(Number, Null))
      && UpdateConfigAsWritten(s, config).state.artificialCPUUsage == s.artificialCPUUsage
      && UpdateConfigAsWritten(s, config).state.cpuUsageService == s.cpuUsageService
      && UpdateConfig(s, config).remaining == Success(map["foo" := JNumber(IntegerLiteral(1))])
  {
    var config := map[MemoryUsageKey := JNull, "foo" := JNumber(IntegerLiteral(1))];
    assert config - ConfigPropertyKeys == map["foo" := JNumber(IntegerLiteral(1))];
  }

  // ---------------------------------------------------------------------
  // The pipeline as a whole

  /** Applying the same configuration twice leaves the service as applying
      it once, whether or not the update threw. */
  lemma UpdateConfigIdempotent(s: ServiceState, config: Bag)
    ensures UpdateConfig(UpdateConfig(s, config).state, config) == UpdateConfig(s, config)
  {
    var p := UpdatePubsubDeterioration(s, config);
    var i := UpdateServiceInvocationDeterioration(p.state, config);
    var m := UpdateArtificialMemoryUsage(i.state, config);
    var s' := UpdateConfig(s, config).state;
    if p.error.Some? {
      assert s' == s;
    } else if i.error.Some? {
      InvocationFailureIdempotent(s, config);
    } else if m.error.Some? {
      MemoryFailureIdempotent(s, config);
    } else {
      LastStepIdempotent(s, config);
    }
  }

  lemma InvocationFailureIdempotent(s: ServiceState, config: Bag)
    requires UpdatePubsubDeterioration(s, config).error.None?
    requires UpdateServiceInvocationDeterioration(UpdatePubsubDeterioration(s, config).state, config).error.Some?
    ensures UpdateConfig(UpdateConfig(s, config).state, config) == UpdateConfig(s, config)
  {
  }

  lemma MemoryFailureIdempotent(s: ServiceState, config: Bag)
    requires UpdatePubsubDeterioration(s, config).error.None?
    requires UpdateServiceInvocationDeterioration(UpdatePubsubDeterioration(s, config).state, config).error.None?
    requires UpdateArtificialMemoryUsage(UpdateServiceInvocationDeterioration(UpdatePubsubDeterioration(s, config).state, config).state, config).error.Some?
    ensures UpdateConfig(UpdateConfig(s, config).state, config) == UpdateConfig(s, config)
  {
  }

  lemma LastStepIdempotent(s: ServiceState, config: Bag)
    requires UpdatePubsubDeterioration(s, config).error.None?
    requires UpdateServiceInvocationDeterioration(UpdatePubsubDeterioration(s, config).state, config).error.None?
    requires UpdateArtificialMemoryUsage(UpdateServiceInvocationDeterioration(UpdatePubsubDeterioration(s, config).state, config).state, config).error.None?
    ensures UpdateConfig(UpdateConfig(s, config).state, config) == UpdateConfig(s, config)
  {
    var p := UpdatePubsubDeterioration(s, config);
    var i := UpdateServiceInvocationDeterioration(p.state, config);
    var m := UpdateArtificialMemoryUsage(i.state, config);
    var c := UpdateArtificialCPUUsage(m.state, config);
    var s' := c.state;
    assert UpdatePubsubDeterioration(s', config) == Step(s', None);
    assert UpdateServiceInvocationDeterioration(s', config) == Step(s', None);
    assert UpdateArtificialMemoryUsage(s', config) == Step(s', None);
    assert UpdateArtificialCPUUsage(s', config) == Step(s', c.error);
  }

  /** Whether an update throws, and what it returns, depends on the
      configuration alone; after a successful update the rules are replaced
      wholesale, the only state carried over being the memory target when
      the memory key is absent. */
  lemma UpdateReplacesRules(s1: ServiceState, s2: ServiceState, config: Bag)
    requires MemoryUsageKey in config || s1.artificialMemoryUsage == s2.artificialMemoryUsage
    ensures UpdateConfig(s1, config).remaining == UpdateConfig(s2, config).remaining
    ensures UpdateConfig(s1, config).remaining.Success? ==> UpdateConfig(s1, config).state == UpdateConfig(s2, config).state
  {
    var p1, p2 := UpdatePubsubDeterioration(s1, config), UpdatePubsubDeterioration(s2, config);
    assert p1.error == p2.error;
    if p1.error.None? {
      var i1, i2 := UpdateServiceInvocationDeterioration(p1.state, config), UpdateServiceInvocationDeterioration(p2.state, config);
      assert i1.error == i2.error;
      if i1.error.None? {
        var m1, m2 := UpdateArtificialMemoryUsage(i1.state, config), UpdateArtificialMemoryUsage(i2.state, config);
        assert m1.error == m2.error;
        if m1.error.None? {
          assert m1.state.artificialMemoryUsage == m2.state.artificialMemoryUsage;
          var c1, c2 := UpdateArtificialCPUUsage(m1.state, config), UpdateArtificialCPUUsage(m2.state, config);
          assert c1.error == c2.error;
          if c1.error.None? {
            assert c1.state == c2.state;
          }
        }
      }
    }
  }

  /** Applying an empty configuration at process start leaves the initial
      state as it is and passes nothing on. */
  lemma EmptyConfigKeepsInitialState()
    ensures UpdateConfig(InitialState, map[]) == UpdateResult(InitialState, Success(map[]))
  {
  }

  /** A null pub/sub value with an unrelated key: the rule resets to its
      default and only the unrelated key is passed on. */
  lemma NullPubsubExample(s: ServiceState)
    ensures var config := map[PubsubDeteriorationKey := JNull, "foo" := JNumber(IntegerLiteral(1))];
      var r := UpdateConfig(s, config);
      && r.remaining == Success(map["foo" := JNumber(IntegerLiteral(1))])
      && r.state.pubsubRule == PubsubDeteriorationRule(0, None, None)
  {
    var config := map[PubsubDeteriorationKey := JNull, "foo" := JNumber(IntegerLiteral(1))];
    ConfigPropertyKeysAreFourDistinctKeys();
    assert "foo" !in ConfigPropertyKeys;
    assert config - ConfigPropertyKeys == map["foo" := JNumber(IntegerLiteral(1))];
  }

  // ---------------------------------------------------------------------
  // Decisions

  /** A probability of at least 1 always fires; one of at most 0 never does. */
  lemma CertainProbabilities(p: real, sample: Sample)
    ensures p >= 1.0 ==> Fires(Some(p), sample)
    ensures p <= 0.0 ==> !Fires(Some(p), sample)
  {
  }

  lemma PubsubCertainDelay(s: ServiceState, sample1: Sample, sample2: Sample)
    requires s.pubsubRule.delayProbability == Some(1.0) && s.pubsubRule.errorProbability == Some(0.0)
    ensures GetPubsubDeterioration(s, sample1, sample2) == Deterioration(Some(s.pubsubRule.delay), None)
  {
  }

  lemma PubsubCertainError(s: ServiceState, sample1: Sample, sample2: Sample)
    requires s.pubsubRule.delayProbability == Some(0.0) && s.pubsubRule.errorProbability == Some(1.0)
    ensures GetPubsubDeterioration(s, sample1, sample2) == Deterioration(None, Some(500))
  {
  }

  /** The pub/sub rule behaves as a single path-less service-invocation rule
      whose error code is 500. */
  function AsCatchAllRule(rule: PubsubDeteriorationRule): ServiceInvocationDeteriorationRule {
    ServiceInvocationDeteriorationRule(None, rule.delayProbability, rule.delay, rule.errorProbability, 500)
  }

  lemma PubsubIsCatchAllRule(s: ServiceState, path: string, sample1: Sample, sample2: Sample)
    ensures GetPubsubDeterioration(s, sample1, sample2)
         == GetServiceInvocationDeterioration(s.(serviceInvocationRules := [AsCatchAllRule(s.pubsubRule)]), path, sample1, sample2)
  {
  }

  /** Rules after the first applicable one are never consulted. */
  lemma RulesAfterMatchIgnored(s: ServiceState, more: seq<ServiceInvocationDeteriorationRule>, path: string, sample1: Sample, sample2: Sample)
    requires exists k :: 0 <= k < |s.serviceInvocationRules| && Matches(s.serviceInvocationRules[k], path)
    ensures GetServiceInvocationDeterioration(s.(serviceInvocationRules := s.serviceInvocationRules + more), path, sample1, sample2)
         == GetServiceInvocationDeterioration(s, path, sample1, sample2)
  {
    var rules := s.serviceInvocationRules;
    var k := FirstMatch(rules, path).value;
    var all := rules + more;
    assert IsFirstMatch(all, path, k) by {
      assert all[k] == rules[k];
      forall j | 0 <= j < k ensures !Matches(all[j], path) {
        assert all[j] == rules[j];
      }
    }
  }

  /** Rules that do not apply are skipped: the decision is the one of the
      rules after them. */
  lemma InapplicableRulesSkipped(s: ServiceState, skipped: seq<ServiceInvocationDeteriorationRule>, path: string, sample1: Sample, sample2: Sample)
    requires forall j :: 0 <= j < |skipped| ==> !Matches(skipped[j], path)
    ensures GetServiceInvocationDeterioration(s.(serviceInvocationRules := skipped + s.serviceInvocationRules), path, sample1, sample2)
         == GetServiceInvocationDeterioration(s, path, sample1, sample2)
  {
    var rules := s.serviceInvocationRules;
    var all := skipped + rules;
    match FirstMatch(rules, path)
    case None =>
      forall j | 0 <= j < |all| ensures !Matches(all[j], path) {
        if j >= |skipped| { assert all[j] == rules[j - |skipped|]; }
      }
    case Some(k) =>
      assert IsFirstMatch(all, path, |skipped| + k) by {
        assert all[|skipped| + k] == rules[k];
        forall j | 0 <= j < |skipped| + k ensures !Matches(all[j], path) {
          if j >= |skipped| { assert all[j] == rules[j - |skipped|]; }
        }
      }
  }

  /** Two rules certain to fail, one for paths under "/a" with 503 and a
      path-less one with 500: a request under "/a" gets the first rule's 503, any other request the catch-all rule's 500, whatever the
      random draws. */
  lemma FirstMatchExample(s: ServiceState, sample1: Sample, sample2: Sample)
    requires s.serviceInvocationRules == [
      ServiceInvocationDeteriorationRule(Some("/a"), None, 0, Some(1.0), 503),
      ServiceInvocationDeteriorationRule(None, None, 0, Some(1.0), 500)]
    ensures GetServiceInvocationDeterioration(s, "/a/x", sample1, sample2) == Deterioration(None, Some(503))
    ensures GetServiceInvocationDeterioration(s, "/b", sample1, sample2) == Deterioration(None, Some(500))
  {
    assert "/a" <= "/a/x";
    assert IsFirstMatch(s.serviceInvocationRules, "/a/x", 0);
    assert !("/a" <= "/b") by { assert "/b"[1] != "/a"[1]; }
    assert IsFirstMatch(s.serviceInvocationRules, "/b", 1);
  }

  // ---------------------------------------------------------------------
  // Variable definitions

  /** Without a collision the source's sequence of `Add` calls and the
      overwriting merge agree. */
  lemma AddVariableDefinitionsAgreeWithoutCollision(existing: map<string, VariableDefinition>)
    requires existing.Keys !! ConfigPropertyKeys
    ensures AddVariableDefinitionsAsWritten(existing) == Success(AddVariableDefinitions(existing))
  {
    var a := AddVariableDefinitionsAsWritten(existing).value;
    var b := AddVariableDefinitions(existing);
    assert a.Keys == b.Keys;
    forall k | k in a ensures a[k] == b[k] {
      if k in ConfigPropertyKeys {
        assert a[k] == VariableDefinition(SchemaFor(k), JNull) == b[k];
      } else {
        assert a[k] == existing[k] == b[k];
      }
    }
    assert a == b;
  }

  /** An application that defines an owned key itself makes the source's
      `Add` throw, where the merge promised by the method's own comment
      ("Overwrites existing definitions") replaces it. */
  lemma OwnedKeyCollisionThrowsAsWritten(d: VariableDefinition)
    ensures AddVariableDefinitionsAsWritten(map[PubsubDeteriorationKey := d]) == Failure(PubsubDeteriorationKey)
    ensures AddVariableDefinitions(map[PubsubDeteriorationKey := d])[PubsubDeteriorationKey]
         == VariableDefinition(PubsubDeteriorationSchema, JNull)
  {
  }
}

=== FILE: json.dfy ===
/** The slice of System.Text.Json the sidecar relies on: an already-parsed
    JSON element and the `JsonElement` accessors `ValueKind`,
    `TryGetProperty`, `TryGetInt32`, `TryGetInt64`, `TryGetDouble` and
    `GetString`, including the exceptions they throw when an element has the
    wrong kind. */
module JsonValues {
  import opened Wrappers

  newtype int32 = x: int | -0x8000_0000 <= x < 0x8000_0000
  newtype int64 = x: int | -0x8000_0000_0000_0000 <= x < 0x8000_0000_0000_0000

  /** A JSON number as written in the document. The text-level distinction
      matters: the integer accessors only accept a plain integer literal
      (an optional minus sign and digits), never `1.0` or `1e2`. */
  datatype Number =
    | IntegerLiteral(i: int)
    | FractionLiteral(r: real)   // the literal has a fraction or exponent part
  {
    /** The mathematical value of the literal. */
    function Value(): real {
      match this
      case IntegerLiteral(i) => i as real
      case FractionLiteral(r) => r
    }
  }

  datatype Json =
    | JNull
    | JBool(b: bool)
    | JNumber(n: Number)
    | JString(s: string)
    | JArray(items: seq<Json>)
    | JObject(members: seq<(string, Json)>)   // in document order, duplicates kept

  /** `JsonValueKind`. */
  datatype ValueKind = Object | Array | String | Number | True | False | Null

  /** The `InvalidOperationException` an accessor throws when the element
      does not have the kind it needs. */
  datatype JsonError = KindMismatch(expected: ValueKind, actual: ValueKind)

  function KindOf(v: Json): ValueKind {
    match v
    case JNull => Null
    case JBool(b) => if b then True else False
    case JNumber(_) => Number
    case JString(_) => String
    case JArray(_) => Array
    case JObject(_) => Object
  }

  /** Literals at least this large in magnitude round to an infinite double:
      (2^54 - 1) * 2^970, halfway between the largest finite double and 2^1024. */
  const DoubleOverflow: real := 0xfffffffffffffc00000000000000000000000000000000000000000000000000000000000000000000000000000000000000000000000000000000000000000000000000000000000000000000000000000000000000000000000000000000000000000000000000000000000000000000000000000000000000000000000000 as real

  predicate HasMember(members: seq<(string, Json)>, name: string) {
    exists i :: 0 <= i < |members| && members[i].0 == name
  }

  /** Index of the last member called `name`: when a property is defined more
      than once, `TryGetProperty` matches the last definition. Names are
      compared ordinally. */
  function LastIndex(members: seq<(string, Json)>, name: string): (r: Option<nat>)
    ensures r.None? <==> !HasMember(members, name)
    ensures r.Some? ==> r.value < |members| && members[r.value].0 == name
    ensures r.Some? ==> forall j :: r.value < j < |members| ==> members[j].0 != name
  {
    if |members| == 0 then None
    else if members[|members| - 1].0 == name then Some(|members| - 1)
    else
      var k := LastIndex(members[..|members| - 1], name);
      assert forall j :: 0 <= j < |members| - 1 ==> members[..|members| - 1][j] == members[j];
      k
  }

  /** The value of the property `name` of an object's members. */
  function Lookup(members: seq<(string, Json)>, name: string): (r: Option<Json>)
    ensures r.None? <==> !HasMember(members, name)
    ensures r.Some? ==> exists i :: 0 <= i < |members| && members[i] == (name, r.value)
    ensures r.Some? ==> r.value == members[LastIndex(members, name).value].1
  {
    match LastIndex(members, name)
    case None => None
    case Some(i) => Some(members[i].1)
  }

  /** `JsonElement.TryGetProperty`: throws on anything but an object. */
  function TryGetProperty(e: Json, name: string): (r: Result<Option<Json>, JsonError>)
    ensures !e.JObject? <==> r.Failure?
    ensures r.Failure? ==> r.error == KindMismatch(Object, KindOf(e))
    ensures r.Success? ==> (r.value.Some? <==> HasMember(e.members, name))
    ensures r.Success? && r.value.Some? ==> r.value.value == e.members[LastIndex(e.members, name).value].1
  {
    if e.JObject? then Success(Lookup(e.members, name))
    else Failure(KindMismatch(Object, KindOf(e)))
  }

  /** `JsonElement.TryGetInt32`: throws on a non-number; yields nothing for a
      number that is not an integer literal within 32-bit range. */
  function TryGetInt32(e: Json): (r: Result<Option<int32>, JsonError>)
    ensures !e.JNumber? <==> r.Failure?
    ensures r.Failure? ==> r.error == KindMismatch(Number, KindOf(e))
    ensures r.Success? && r.value.Some? ==> e.n == IntegerLiteral(r.value.value as int)
    ensures e.JNumber? && e.n.IntegerLiteral? && -0x8000_0000 <= e.n.i < 0x8000_0000 ==> r.Success? && r.value.Some?
  {
    match e
    case JNumber(IntegerLiteral(i)) =>
      if -0x8000_0000 <= i < 0x8000_0000 then Success(Some(i as int32)) else Success(None)
    case JNumber(FractionLiteral(_)) => Success(None)
    case _ => Failure(KindMismatch(Number, KindOf(e)))
  }

  /** `JsonElement.TryGetInt64`: as `TryGetInt32`, with the 64-bit range. */
  function TryGetInt64(e: Json): (r: Result<Option<int64>, JsonError>)
    ensures !e.JNumber? <==> r.Failure?
    ensures r.Failure? ==> r.error == KindMismatch(Number, KindOf(e))
    ensures r.Success? && r.value.Some? ==> e.n == IntegerLiteral(r.value.value as int)
    ensures e.JNumber? && e.n.IntegerLiteral? && -0x8000_0000_0000_0000 <= e.n.i < 0x8000_0000_0000_0000 ==> r.Success? && r.value.Some?
  {
    match e
    case JNumber(IntegerLiteral(i)) =>
      if -0x8000_0000_0000_0000 <= i < 0x8000_0000_0000_0000 then Success(Some(i as int64)) else Success(None)
    case JNumber(FractionLiteral(_)) => Success(None)
    case _ => Failure(KindMismatch(Number, KindOf(e)))
  }

  /** `JsonElement.TryGetDouble`: throws on a non-number; yields nothing when
      the literal overflows to an infinite double. The value is kept exact
      (rounding to the nearest double is not modelled). */
  function TryGetDouble(e: Json): (r: Result<Option<real>, JsonError>)
    ensures !e.JNumber? <==> r.Failure?
    ensures r.Failure? ==> r.error == KindMismatch(Number, KindOf(e))
    ensures r.Success? ==> (r.value.Some? <==> -DoubleOverflow < e.n.Value() < DoubleOverflow)
    ensures r.Success? && r.value.Some? ==> r.value.value == e.n.Value()
  {
    match e
    case JNumber(n) =>
      if -DoubleOverflow < n.Value() < DoubleOverflow then Success(Some(n.Value())) else Success(None)
    case _ => Failure(KindMismatch(Number, KindOf(e)))
  }

  /** The threshold lies half a unit in the last place (2^970) above the
      largest finite double, 2^1024 - 2^971 = 1.7976931348623157e308, and
      below 2^1024. */
  lemma DoubleOverflowIsHalfwayPastMaxDouble()
    ensures DoubleOverflow == 179769313486231570814527423731704356798070567525844996598917476803157260780028538760589558632766878171540458953514382464234321326889464182768467546703537516986049910576551282076245490090389328944075868508455133942304583236903222948165808559332123348274797826204144723168738177180919299881250404026184124858368.0 + 9979201547673599058281863565184192830337256302177287707512736212186059459344820328924789827463178505446712234220962476219862189941967968303695858991424157101600028364755428382587688607221814935913266783722719619966654052275604351944444276342240220787535604534378780208211792476151720049639424.0
    ensures DoubleOverflow < 179769313486231590772930519078902473361797697894230657273430081157732675805500963132708477322407536021120113879871393357658789768814416622492847430639474124377767893424865485276302219601246094119453082952085005768838150682342462881473913110540827237163350510684586298239947245938479716304835356329624224137216.0
  {
  }

  /** 1e302 and the shortest literal of the largest double,
      1.7976931348623157e308, read as values; 1.8e308 overflows. */
  lemma DoubleOverflowExamples()
    ensures TryGetDouble(JNumber(IntegerLiteral(100000000000000000000000000000000000000000000000000000000000000000000000000000000000000000000000000000000000000000000000000000000000000000000000000000000000000000000000000000000000000000000000000000000000000000000000000000000000000000000000000000000000000000000000000000000000000000000000000000000000000))) == Success(Some(100000000000000000000000000000000000000000000000000000000000000000000000000000000000000000000000000000000000000000000000000000000000000000000000000000000000000000000000000000000000000000000000000000000000000000000000000000000000000000000000000000000000000000000000000000000000000000000000000000000000000.0))
    ensures TryGetDouble(JNumber(FractionLiteral(179769313486231570000000000000000000000000000000000000000000000000000000000000000000000000000000000000000000000000000000000000000000000000000000000000000000000000000000000000000000000000000000000000000000000000000000000000000000000000000000000000000000000000000000000000000000000000000000000000000000000000000.0))) == Success(Some(179769313486231570000000000000000000000000000000000000000000000000000000000000000000000000000000000000000000000000000000000000000000000000000000000000000000000000000000000000000000000000000000000000000000000000000000000000000000000000000000000000000000000000000000000000000000000000000000000000000000000000000.0))
    ensures TryGetDouble(JNumber(FractionLiteral(180000000000000000000000000000000000000000000000000000000000000000000000000000000000000000000000000000000000000000000000000000000000000000000000000000000000000000000000000000000000000000000000000000000000000000000000000000000000000000000000000000000000000000000000000000000000000000000000000000000000000000000.0))) == Success(None)
  {
  }

  /** `JsonElement.GetString`: the text of a string, nothing for null, and an
      exception for every other kind. */
  function GetString(e: Json): (r: Result<Option<string>, JsonError>)
    ensures r.Failure? <==> !(e.JString? || e.JNull?)
    ensures r.Failure? ==> r.error == KindMismatch(String, KindOf(e))
    ensures r.Success? ==> (r.value.Some? <==> e.JString?)
    ensures r.Success? && r.value.Some? ==> r.value.value == e.s
  {
    match e
    case JString(s) => Success(Some(s))
    case JNull => Success(None)
    case _ => Failure(KindMismatch(String, KindOf(e)))
  }
}

=== FILE: models.dfy ===
/** The record types the sidecar's rule engine passes around. */
module Models {
  import opened Wrappers
  import opened JsonValues

  /** A decision for one request: delay it by `delay` milliseconds and/or
      answer it with `errorCode` instead of forwarding it. */
  datatype Deterioration = Deterioration(delay: Option<int32>, errorCode: Option<int32>)

  /** One CPU load generator: spin for `usageDuration` ms, then pause for
      `pauseDuration` ms, forever. */
  datatype CPUUsage = CPUUsage(usageDuration: int32, pauseDuration: int32)

  /** The single pub/sub rule. An absent probability never fires. */
  datatype PubsubDeteriorationRule = PubsubDeteriorationRule(
    delay: int32,
    delayProbability: Option<real>,
    errorProbability: Option<real>)

  /** One entry of the ordered service-invocation rule list; an absent
      `path` matches every request path. */
  datatype ServiceInvocationDeteriorationRule = ServiceInvocationDeteriorationRule(
    path: Option<string>,
    delayProbability: Option<real>,
    delay: int32,
    errorProbability: Option<real>,
    errorCode: int32)

  /** A 128-bit replica identifier, already parsed from its text form. */
  type Guid = bv128

  /** The variables addressed to one replica in a configuration event. */
  datatype ReplicaConfiguration = ReplicaConfiguration(replicaId: Guid, variables: map<string, Json>)

  /** A draw of `Random.NextDouble()`: a real in [0, 1). */
  type Sample = r: real | 0.0 <= r < 1.0
}

=== FILE: program.dfy ===
/** The pure decisions of the sidecar's HTTP endpoints: subscription route
    rewriting, the extra configuration subscription, replica selection for
    configuration events, forwarding of the remaining configuration, and the
    target URLs and outcomes of intercepted requests. */
module Program {
  import opened Wrappers
  import opened JsonValues
  import opened Models
  import opened Util
  import opened ConfigPropertyDefinitions
  import opened ConfigService

  /** A Dapr subscription: which topic of which pub/sub component is
      delivered to which route. */
  datatype SubscriptionSpec = SubscriptionSpec(pubsubName: string, topic: string, route: string)

  const PubsubName: string := "experiment-config-pubsub"
  const VariablesEventRoute: string := "/_ecs/variables-event"

  /** Deliveries are intercepted under this prefix: the route template
      `/_ecs/pubsub/{**path}` captures the rest as `path`. */
  const PubsubHandlerPrefix: string := "/_ecs/pubsub/"

  predicate StartsWithSlash(route: string) {
    |route| > 0 && route[0] == '/'
  }

  /** The path the pub/sub handler captures from a request path, when the
      request reaches it (segments compared ordinally). */
  function PubsubHandlerPath(requestPath: string): (r: Option<string>)
    ensures r.Some? <==> PubsubHandlerPrefix <= requestPath
    ensures r.Some? ==> requestPath == PubsubHandlerPrefix + r.value
  {
    if PubsubHandlerPrefix <= requestPath then Some(requestPath[|PubsubHandlerPrefix|..]) else None
  }

  /** The route rewrite as the source writes it: the unslashed branch uses
      the prefix "/_esc/pubsub/" instead of "/_ecs/pubsub/". */
  function RewriteRouteAsWritten(route: string): (r: string)
    ensures StartsWithSlash(route) ==> PubsubHandlerPath(r) == Some(route[1..])
    ensures !StartsWithSlash(route) ==> PubsubHandlerPath(r).None?
    ensures !StartsWithSlash(route) ==> r == "/_esc/pubsub/" + route
  {
    if StartsWithSlash(route) then
      HandlerCapturesRest(route[1..]);
      assert "/_ecs/pubsub" + route == PubsubHandlerPrefix + route[1..];
      "/_ecs/pubsub" + route
    else
      assert ("/_esc/pubsub/" + route)[3] == 's' && PubsubHandlerPrefix[3] == 'c';
      "/_esc/pubsub/" + route
  }

  /** The route rewrite with the handler's own prefix in both branches: the
      handler captures the route without its leading slash. */
  function RewriteRoute(route: string): (r: string)
    ensures PubsubHandlerPath(r) == Some(AppRoute(route)[1..])
  {
    var rest := AppRoute(route)[1..];
    assert AppRoute(route) == "/" + rest;
    HandlerCapturesRest(rest);
    if StartsWithSlash(route) then
      assert "/_ecs/pubsub" + route == PubsubHandlerPrefix + rest;
      "/_ecs/pubsub" + route
    else
      PubsubHandlerPrefix + route
  }

  /** The route as the application receives it: with a leading slash. */
  function AppRoute(route: string): (r: string)
    ensures StartsWithSlash(r)
  {
    if StartsWithSlash(route) then route else "/" + route
  }

  /** The pub/sub handler forwards to `appUrl/path`. */
  function PubsubTargetUrl(appUrl: string, path: string): (r: string)
    ensures appUrl <= r && r[|appUrl|..] == "/" + path
  {
    appUrl + "/" + path
  }

  /** Every other request is forwarded to `appUrl` followed by its path. */
  function FallbackTargetUrl(appUrl: string, path: string): (r: string)
    ensures appUrl <= r && r[|appUrl|..] == path
  {
    appUrl + path
  }

  /** As written, a route without a leading slash is rewritten to a path
      the pub/sub handler never sees: its deliveries fall through to the
      service-invocation fallback, which forwards them, when it forwards,
      to "/_esc/pubsub/" + route on the application instead of the route
      the application subscribed with. */
  lemma UnslashedRouteMissesHandlerAsWritten(s: ServiceState, appUrl: string, route: string, sample1: Sample, sample2: Sample)
    requires !StartsWithSlash(route)
    ensures PubsubHandlerPath(RewriteRouteAsWritten(route)).None?
    ensures var r := HandleServiceInvocation(s, appUrl, RewriteRouteAsWritten(route), sample1, sample2);
      r.Forward? ==> r.url == appUrl + "/_esc/pubsub/" + route
  {
  }

  /** The handler captures whatever follows its prefix. */
  lemma HandlerCapturesRest(rest: string)
    ensures PubsubHandlerPath(PubsubHandlerPrefix + rest) == Some(rest)
  {
    assert (PubsubHandlerPrefix + rest)[|PubsubHandlerPrefix|..] == rest;
  }

  /** Every rewritten route reaches the pub/sub handler, which forwards the
      delivery to the application at the route it subscribed with. */
  lemma RewrittenRouteDeliveredToApp(appUrl: string, route: string)
    ensures PubsubHandlerPath(RewriteRoute(route)) == Some(AppRoute(route)[1..])
    ensures PubsubTargetUrl(appUrl, PubsubHandlerPath(RewriteRoute(route)).value) == appUrl + AppRoute(route)
  {
  }

  /** The configuration subscription the sidecar adds for itself. */
  function ConfigSubscription(serviceName: string): SubscriptionSpec {
    SubscriptionSpec(PubsubName, "config/" + serviceName, VariablesEventRoute)
  }

  /** The application's subscriptions with their routes rewritten, in
      order, followed by the configuration subscription. */
  function Subscriptions(appSpecs: seq<SubscriptionSpec>, serviceName: string): (r: seq<SubscriptionSpec>)
    ensures |r| == |appSpecs| + 1
    ensures forall i :: 0 <= i < |appSpecs| ==>
      r[i].pubsubName == appSpecs[i].pubsubName && r[i].topic == appSpecs[i].topic
    ensures forall i :: 0 <= i < |appSpecs| ==> PubsubHandlerPath(r[i].route) == Some(AppRoute(appSpecs[i].route)[1..])
    ensures r[|appSpecs|] == ConfigSubscription(serviceName)
    ensures PubsubHandlerPath(r[|appSpecs|].route).None?
  {
    assert VariablesEventRoute[6] == 'v' && PubsubHandlerPrefix[6] == 'p';
    var rewritten := seq(|appSpecs|, i requires 0 <= i < |appSpecs| => appSpecs[i].(route := RewriteRoute(appSpecs[i].route)));
    rewritten + [ConfigSubscription(serviceName)]
  }

  predicate IsFirstAddressed(configs: seq<ReplicaConfiguration>, replicaId: Guid, k: int) {
    && 0 <= k < |configs|
    && configs[k].replicaId == replicaId
    && forall j :: 0 <= j < k ==> configs[j].replicaId != replicaId
  }

  /** The index of the first configuration addressed to this replica. */
  function FirstAddressed(configs: seq<ReplicaConfiguration>, replicaId: Guid): (r: Option<nat>)
    ensures r.Some? ==> IsFirstAddressed(configs, replicaId, r.value)
    ensures r.None? <==> forall i :: 0 <= i < |configs| ==> configs[i].replicaId != replicaId
  {
    if |configs| == 0 then None
    else if configs[0].replicaId == replicaId then Some(0)
    else match FirstAddressed(configs[1..], replicaId)
      case None => None
      case Some(k) => Some(k + 1)
  }

  /** The first configuration addressed to this replica, if any; the
      configurations of other replicas are ignored. */
  function SelectConfiguration(configs: seq<ReplicaConfiguration>, replicaId: Guid): (r: Option<ReplicaConfiguration>)
    ensures r.None? <==> forall i :: 0 <= i < |configs| ==> configs[i].replicaId != replicaId
    ensures forall k :: IsFirstAddressed(configs, replicaId, k) ==> r == Some(configs[k])
  {
    match FirstAddressed(configs, replicaId)
    case None => None
    case Some(k) =>
      assert forall k' :: IsFirstAddressed(configs, replicaId, k') ==> k' == k;
      Some(configs[k])
  }

  /** What a configuration event does: the state after it, the remaining
      configuration posted to the application (if any), and the exception
      that aborted the update (if any). */
  datatype EventOutcome = EventOutcome(state: ServiceState, forwarded: Option<Bag>, failure: Option<JsonError>)

  function HandleVariablesEvent(s: ServiceState, configs: seq<ReplicaConfiguration>, replicaId: Guid): (r: EventOutcome)
    ensures (forall i :: 0 <= i < |configs| ==> configs[i].replicaId != replicaId) ==> r == EventOutcome(s, None, None)
    ensures r.forwarded.Some? ==> r.failure.None? && |r.forwarded.value| > 0
    ensures r.forwarded.Some? ==> forall k :: k in r.forwarded.value ==> k !in ConfigPropertyKeys
    ensures forall k :: IsFirstAddressed(configs, replicaId, k) ==>
      var u := UpdateConfig(s, configs[k].variables);
      && r.state == u.state
      && (r.failure.Some? <==> u.remaining.Failure?)
      && (u.remaining.Success? ==> (r.forwarded.Some? <==> |u.remaining.value| > 0))
      && (r.forwarded.Some? ==> r.forwarded.value == u.remaining.value)
  {
    match SelectConfiguration(configs, replicaId)
    case None => EventOutcome(s, None, None)
    case Some(config) =>
      var u := UpdateConfig(s, config.variables);
      match u.remaining
      case Failure(e) => EventOutcome(u.state, None, Some(e))
      case Success(remaining) =>
        EventOutcome(u.state, if |remaining| > 0 then Some(remaining) else None, None)
  }

  /** The outcome a rule's verdict gives a request: a fired delay is waited
      first (-1 forever; below -1 the wait throws), then a fired error
      answers with `errorCode`, and otherwise the request is forwarded to
      `url` after the delay, if any. */
  predicate Verdict(delayProbability: Option<real>, delay: int32, errorProbability: Option<real>, errorCode: int32,
                    sample1: Sample, sample2: Sample, url: string, r: ProxyOutcome)
  {
    var delayed := Fires(delayProbability, sample1);
    var failed := Fires(errorProbability, sample2);
    if delayed && delay == -1 then r == WaitsForever
    else if delayed && delay < -1 then r == DelayRejected
    else
      var waited := if delayed then delay as int else 0;
      if failed then r == Respond(waited, errorCode) else r == Forward(waited, url)
  }

  /** A pub/sub delivery captured as `path`: decided by the pub/sub rule and
      forwarded to `appUrl/path`. */
  function HandlePubsubDelivery(s: ServiceState, appUrl: string, path: string, sample1: Sample, sample2: Sample): (r: ProxyOutcome)
    ensures r.Respond? ==> r.status == 500
    ensures r.Forward? ==> r.url == PubsubTargetUrl(appUrl, path)
    ensures s.pubsubRule == PubsubDeteriorationRule(0, None, None) ==> r == Forward(0, PubsubTargetUrl(appUrl, path))
    ensures Verdict(s.pubsubRule.delayProbability, s.pubsubRule.delay, s.pubsubRule.errorProbability, 500,
                    sample1, sample2, PubsubTargetUrl(appUrl, path), r)
  {
    ApplyDeterioration(GetPubsubDeterioration(s, sample1, sample2), PubsubTargetUrl(appUrl, path))
  }

  /** Any other request: decided by the first applicable service-invocation
      rule and forwarded to `appUrl` plus its path. */
  function HandleServiceInvocation(s: ServiceState, appUrl: string, path: string, sample1: Sample, sample2: Sample): (r: ProxyOutcome)
    ensures r.Forward? ==> r.url == FallbackTargetUrl(appUrl, path)
    ensures (forall j :: 0 <= j < |s.serviceInvocationRules| ==> !Matches(s.serviceInvocationRules[j], path)) ==>
      r == Forward(0, FallbackTargetUrl(appUrl, path))
    ensures r.Respond? ==>
      exists k :: IsFirstMatch(s.serviceInvocationRules, path, k) && r.status == s.serviceInvocationRules[k].errorCode
    ensures forall k :: IsFirstMatch(s.serviceInvocationRules, path, k) ==>
      var rule := s.serviceInvocationRules[k];
      Verdict(rule.delayProbability, rule.delay, rule.errorProbability, rule.errorCode,
              sample1, sample2, FallbackTargetUrl(appUrl, path), r)
  {
    var d := GetServiceInvocationDeterioration(s, path, sample1, sample2);
    var k := FirstMatch(s.serviceInvocationRules, path);
    assert k.Some? ==> IsFirstMatch(s.serviceInvocationRules, path, k.value);
    ApplyDeterioration(d, FallbackTargetUrl(appUrl, path))
  }
}

=== FILE: util.dfy ===
/** The JSON property accessors of the sidecar's utility class and the
    verdict-applying branch of its request proxy. */
module Util {
  import opened Wrappers
  import opened JsonValues
  import opened Models

  /** The value of property `name` of object `e`, or nothing when missing;
      throws when `e` is not an object. */
  function Property(e: Json, name: string): Json
    requires e.JObject? && HasMember(e.members, name)
  {
    Lookup(e.members, name).value
  }

  /** A number-valued property as a double; nothing when the property is
      missing or overflows a double, an exception when `e` is not an object
      or the property is not a number. */
  function GetDoubleProperty(e: Json, name: string): (r: Result<Option<real>, JsonError>)
    ensures !e.JObject? ==> r == Failure(KindMismatch(Object, KindOf(e)))
    ensures e.JObject? && !HasMember(e.members, name) ==> r == Success(None)
    ensures e.JObject? && HasMember(e.members, name) ==>
      (r.Failure? <==> !Property(e, name).JNumber?)
    ensures r.Success? && r.value.Some? ==>
      HasMember(e.members, name) && r.value.value == Property(e, name).n.Value()
    ensures e.JObject? && HasMember(e.members, name) && Property(e, name).JNumber? ==>
      r.Success? && (r.value.Some? <==> -DoubleOverflow < Property(e, name).n.Value() < DoubleOverflow)
  {
    var p :- TryGetProperty(e, name);
    match p
    case None => Success(None)
    case Some(v) => TryGetDouble(v)
  }

  /** A number-valued property as a 32-bit integer; nothing when the property
      is missing, not an integer literal, or out of range; an exception when
      `e` is not an object or the property is not a number. */
  function GetIntProperty(e: Json, name: string): (r: Result<Option<int32>, JsonError>)
    ensures !e.JObject? ==> r == Failure(KindMismatch(Object, KindOf(e)))
    ensures e.JObject? && !HasMember(e.members, name) ==> r == Success(None)
    ensures e.JObject? && HasMember(e.members, name) ==>
      (r.Failure? <==> !Property(e, name).JNumber?)
    ensures r.Success? && r.value.Some? ==>
      HasMember(e.members, name) && Property(e, name) == JNumber(IntegerLiteral(r.value.value as int))
    ensures e.JObject? && HasMember(e.members, name) && Property(e, name).JNumber? ==>
      (r.value.Some? <==> Property(e, name).n.IntegerLiteral? && -0x8000_0000 <= Property(e, name).n.i < 0x8000_0000)
  {
    var p :- TryGetProperty(e, name);
    match p
    case None => Success(None)
    case Some(v) => TryGetInt32(v)
  }

  /** A string-valued property; nothing when the property is missing or
      JSON null; an exception when `e` is not an object or the property is
      neither a string nor null. */
  function GetStringProperty(e: Json, name: string): (r: Result<Option<string>, JsonError>)
    ensures !e.JObject? ==> r == Failure(KindMismatch(Object, KindOf(e)))
    ensures e.JObject? && !HasMember(e.members, name) ==> r == Success(None)
    ensures e.JObject? && HasMember(e.members, name) ==>
      (r.Failure? <==> !(Property(e, name).JString? || Property(e, name).JNull?))
    ensures e.JObject? && HasMember(e.members, name) && Property(e, name).JNull? ==> r == Success(None)
    ensures e.JObject? && HasMember(e.members, name) && Property(e, name).JString? ==>
      r == Success(Some(Property(e, name).s))
    ensures r.Success? && r.value.Some? ==>
      HasMember(e.members, name) && Property(e, name) == JString(r.value.value)
  {
    var p :- TryGetProperty(e, name);
    match p
    case None => Success(None)
    case Some(v) => GetString(v)
  }

  /** True exactly for elements whose kind is `Null`. */
  function IsNull(e: Json): (b: bool)
    ensures b <==> KindOf(e) == Null
  {
    e.JNull?
  }

  /** What handling a request comes to once its deterioration is known. */
  datatype ProxyOutcome =
    | Respond(waited: nat, status: int32)   // answered with the injected status, never forwarded
    | Forward(waited: nat, url: string)     // handed to the application at `url`
    | WaitsForever                          // a delay of -1 is an infinite wait
    | DelayRejected                         // a delay below -1 makes the wait throw

  /** The verdict branch of the proxy: the delay is applied first, then an
      error code short-circuits the request, otherwise it is forwarded. */
  function ApplyDeterioration(d: Deterioration, requestUrl: string): (r: ProxyOutcome)
    ensures r == WaitsForever <==> d.delay == Some(-1)
    ensures r == DelayRejected <==> d.delay.Some? && d.delay.value < -1
    ensures r.Respond? <==> d.errorCode.Some? && !(d.delay.Some? && d.delay.value < 0)
    ensures r.Respond? ==> r.status == d.errorCode.value
    ensures r.Forward? <==> d.errorCode.None? && !(d.delay.Some? && d.delay.value < 0)
    ensures r.Forward? ==> r.url == requestUrl
    ensures r.Respond? || r.Forward? ==> r.waited == if d.delay.Some? then d.delay.value as int else 0
  {
    if d.delay == Some(-1) then WaitsForever
    else if d.delay.Some? && d.delay.value < -1 then DelayRejected
    else
      var waited: nat := if d.delay.Some? then d.delay.value as int else 0;
      match d.errorCode
      case Some(code) => Respond(waited, code)
      case None => Forward(waited, requestUrl)
  }
}

=== FILE: wrappers.dfy ===
/** Failure-compatible wrappers: an optional value (the source's nullable
    types) and a result that is either a value or the exception the source
    would throw. Both can be used with `:-`. */
module Wrappers {

  /** A value that may be absent; models C#'s `T?`. */
  datatype Option<+T> = None | Some(value: T) {

    predicate IsFailure() {
      None?
    }

    function PropagateFailure<U>(): Option<U>
      requires None?
    {
      None
    }

    function Extract(): T
      requires Some?
    {
      value
    }

    /** The `??` operator: the value, or `default` when absent. */
    function GetOr(default: T): (r: T)
      ensures Some? ==> r == value
      ensures None? ==> r == default
    {
      match this
      case Some(v) => v
      case None => default
    }
  }

  /** Either a computed value or the error an operation raised. */
  datatype Result<+R, +E> = Success(value: R) | Failure(error: E) {

    predicate IsFailure() {
      Failure?
    }

    function PropagateFailure<U>(): Result<U, E>
      requires Failure?
    {
      Failure(error)
    }

    function Extract(): R
      requires Success?
    {
      value
    }
  }
}
